=== FILE: README.md ===
# WordTracker ingestion core in Dafny

WordTracker is an Android app that watches the clipboard. It keeps a table of the English words the user copies.

This project models the part of the app that turns a clipboard change into rows of the `words` table:

- **The listener guard** (`ClipboardService`). It decides whether copied text is handed on. Around it is the service's monitoring switch: start, stop, toggle, command dispatch and tear-down.
- **`extractWords`**. It splits the text on runs of characters outside `[a-zA-Z']`, drops short and blank pieces, trims the rest and removes duplicates. The first occurrence is kept.
- **The per-token loop of `addWordFromClipboard`**. A token whose lower-case form is stored raises that row's usage count. Otherwise the dictionary is consulted and a new row is inserted. The row carries the first entry's phonetic, the first meaning's part of speech and that meaning's first definition.
- **The DAO statements and queries** over the table (`WordDao`, `Word`).
- **The view model's state** and its case-insensitive search filter (`WordViewModel`).

Layout, one module per file:

| file | module | models |
|---|---|---|
| `collections.dfy` | `Collections` | Kotlin `filter`, `distinct`, `map`, `firstOrNull`, `ORDER BY … DESC`, `LIMIT` |
| `text.dfy` | `Text` | `isWhitespace`, `isBlank`, `trim`, ASCII `lowercase`, `contains(ignoreCase = true)` |
| `word.dfy` | `WordEntity` | the `Word` entity, its defaults and `toString` |
| `word_dao.dfy` | `Dao` | the table as a value (`Table`), each SQL statement as a function of it, SQLite `LIKE`, and the class `WordDao` that updates the live table |
| `dictionary.dfy` | `Dictionary` | the dictionary response shapes and the reduction in `fetchWordDefinition` |
| `tokenizer.dfy` | `Tokenizer` | `extractWords` |
| `ingestion.dfy` | `Ingestion` | what `addWordFromClipboard` does to the table, as functions, and the lemmas about it |
| `word_repository.dfy` | `Repository` | the class `WordRepository`: the ingestion loop and the forwarding calls |
| `word_view_model.dfy` | `ViewModel` | the class `WordViewModel` and `filteredWords` |
| `clipboard_service.dfy` | `Service` | the class `ClipboardService` |

The outside world is passed in as values:

- Each clipboard change is a `ClipEvent`: the copied text, the detected source app and one clock reading for the whole event.
- The dictionary service and the store's exceptions are an `Oracle`:
  - `lookup(k)` is what the HTTP call for key `k` produced: a status code and a parsed body, or an exception;
  - `storeFaults` is the set of token positions whose store calls throw.

Three consequences of the code are worth stating:

- **Uniqueness of `word`.** `Word.kt` declares only `id` as primary key, and `@Insert(onConflict = IGNORE)` only covers clashes on that key. Uniqueness of `word` comes from the lookup-before-insert when events are handled one at a time (`Ingestion.IngestPrefixUniqueWords`).
- **Case of tokens.** Tokens keep their case, so "The" and "the" are two tokens (`Tokenizer.CaseVariantsAreDistinctTokens`). Only the stored `word` is lower-cased, so the second spelling increments the row the first one created (`Ingestion.CaseVariantsShareOneRow`).
- **Re-observing a word.** A re-observed word only gains one use; `source` and `copiedText` are not refreshed (`Ingestion.ExistingTokenIncrements`).

## Model

| member | source | states |
|---|---|---|
| Text.Lower | WordTracker_Project/app/src/main/java/com/wordtracker/repository/WordRepository.kt:36 | `lowercase()` keeps the length and maps every character through ASCII case folding |
| Text.IsWhitespace | WordTracker_Project/app/src/main/java/com/wordtracker/repository/WordRepository.kt:64 | Kotlin's `isWhitespace` set; no letter or apostrophe is in it, so `trim` cannot touch a token (stated by `Text.WordCharIsNotWhitespace` and `Text.TrimWordIsIdentity`) |
| Text.IsBlank | app/src/main/java/com/wordtracker/service/ClipboardService.kt:93 | `isBlank` / `isNullOrBlank`, also used by the tokenizer's filter and the view model's query check; stated by `Tokenizer.BlankTextHasNoTokens`, `Service.BlankClipIsNoOp` and `ViewModel.FilteredSpec` |
| Text.ContainsIgnoreCase | app/src/main/java/com/wordtracker/viewmodel/WordViewModel.kt:33-34 | `contains(query, ignoreCase = true)`: some window of the string equals the query up to ASCII case; stated by `ViewModel.FilteredSpec` and `Dao.LikeContains` |
| Text.TrimWordIsIdentity | WordTracker_Project/app/src/main/java/com/wordtracker/repository/WordRepository.kt:65 | `trim()` leaves every string of letters and apostrophes unchanged |
| Tokenizer.Split | WordTracker_Project/app/src/main/java/com/wordtracker/repository/WordRepository.kt:63 | the split yields at least one piece, and every piece consists of letters and apostrophes only |
| Tokenizer.DropSeparators | WordTracker_Project/app/src/main/java/com/wordtracker/repository/WordRepository.kt:63 | the separator run removed is a prefix of the text holding no letter or apostrophe, and what is kept starts with a letter or apostrophe, so the run is maximal |
| Tokenizer.SeparatorRuns | WordTracker_Project/app/src/main/java/com/wordtracker/repository/WordRepository.kt:63 | there is one separator run between each two pieces of the split |
| Tokenizer.SplitPoints | WordTracker_Project/app/src/main/java/com/wordtracker/repository/WordRepository.kt:63 | the text is exactly its pieces with a non-empty run of characters outside [a-zA-Z'] between each two, and only the first and last piece may be empty, so the split cuts at every maximal separator run and nowhere else |
| Tokenizer.InteriorPiecesNonEmpty | WordTracker_Project/app/src/main/java/com/wordtracker/repository/WordRepository.kt:63 | no piece between two separator runs is empty: a run is never cut in two |
| Tokenizer.SplitLosesOnlySeparators | WordTracker_Project/app/src/main/java/com/wordtracker/repository/WordRepository.kt:63 | the pieces laid end to end are exactly the text's letters and apostrophes, in order |
| Tokenizer.ExtractWords | WordTracker_Project/app/src/main/java/com/wordtracker/repository/WordRepository.kt:62-67 | split, length filter, trim, distinct; its contract is stated by `Tokenizer.ExtractWordsTokens`, `ExtractWordsNoDuplicates`, `ExtractWordsOrder` and `ExtractWordsIsDistinctCandidates` |
| Tokenizer.CandidatesAreTrimmed | WordTracker_Project/app/src/main/java/com/wordtracker/repository/WordRepository.kt:64-65 | on split pieces, the blank/length filter keeps exactly the pieces of two or more characters, and `trim` is the identity on them |
| Tokenizer.ExtractWordsIsDistinctCandidates | WordTracker_Project/app/src/main/java/com/wordtracker/repository/WordRepository.kt:62-67 | extractWords is the deduplication of the qualifying pieces; the `map { trim }` step changes nothing |
| Tokenizer.ExtractWordsTokens | WordTracker_Project/app/src/main/java/com/wordtracker/repository/WordRepository.kt:62-65 | every token has at least two characters, all ASCII letters or apostrophes; a string is a token iff it is a piece of the split with at least two characters |
| Tokenizer.ExtractWordsNoDuplicates | WordTracker_Project/app/src/main/java/com/wordtracker/repository/WordRepository.kt:66 | no token occurs twice |
| Tokenizer.ExtractWordsOrder | WordTracker_Project/app/src/main/java/com/wordtracker/repository/WordRepository.kt:63-66 | of two tokens, the earlier one first occurs earlier among the pieces of the text |
| Tokenizer.CaseVariantsAreDistinctTokens | WordTracker_Project/app/src/main/java/com/wordtracker/repository/WordRepository.kt:66 | deduplication is case-sensitive: two spellings of one word that differ in case are both tokens |
| Tokenizer.BlankTextHasNoTokens | WordTracker_Project/app/src/main/java/com/wordtracker/repository/WordRepository.kt:62-67 | blank text yields no tokens |
| Collections.FilterSpec | app/src/main/java/com/wordtracker/viewmodel/WordViewModel.kt:32-35 | Kotlin `filter` yields a subsequence holding exactly the elements that satisfy the predicate, each as often as in the input |
| Collections.DistinctSpec | WordTracker_Project/app/src/main/java/com/wordtracker/repository/WordRepository.kt:66 | `distinct` has no duplicates, keeps exactly the input's elements, and orders them by first occurrence |
| Collections.DistinctFilterOrder | WordTracker_Project/app/src/main/java/com/wordtracker/repository/WordRepository.kt:64-66 | after filtering and deduplicating, elements stay in order of first occurrence in the unfiltered input |
| Collections.SortDescSpec | app/src/main/java/com/wordtracker/data/WordDao.kt:10-11 | `ORDER BY … DESC` yields a permutation of its input, sorted by non-increasing key |
| Collections.Take | app/src/main/java/com/wordtracker/data/WordDao.kt:19-20 | `LIMIT n` yields a prefix of length min(n, size) |
| Dictionary.Reduce | WordTracker_Project/app/src/main/java/com/wordtracker/repository/WordRepository.kt:69-94 | the result is non-null iff the call returned a 2xx response with a non-null, non-empty body. The pronunciation is the first entry's phonetic. Part of speech and definition come from that entry's first meaning and its first definition, and are null where a list is missing or empty |
| Repository.FetchWordDefinition | WordTracker_Project/app/src/main/java/com/wordtracker/repository/WordRepository.kt:69-94 | the service is asked for `word.lowercase()` and its answer is reduced by `Dictionary.Reduce`; `Repository.FetchIgnoresCase` states that only the lower-case key matters |
| Repository.FetchIgnoresCase | WordTracker_Project/app/src/main/java/com/wordtracker/repository/WordRepository.kt:72 | spellings that differ only in case fetch the same definition, and the stored lower-cased word fetches what its token fetched |
| WordEntity.NewWord | WordTracker_Project/app/src/main/java/com/wordtracker/data/Word.kt:9-19 | `Word(word = …)` with every other field at its default: id 0, null definition, pronunciation, part of speech, source and copied text, not a favourite, usage 1; stated by `Dao.InsertNewWordAssignsId` |
| WordEntity.ToString | WordTracker_Project/app/src/main/java/com/wordtracker/data/Word.kt:21-23 | renders the word, the nullable definition and the date; stated by `WordEntity.ToStringShowsOnlyWordDefinitionDate` |
| WordEntity.ToStringShowsOnlyWordDefinitionDate | WordTracker_Project/app/src/main/java/com/wordtracker/data/Word.kt:21-23 | rows that agree on word, definition and date render identically |
| Dao.FindId | app/src/main/java/com/wordtracker/data/WordDao.kt:40-44 | the primary-key lookup finds a position holding the id, and finds none iff no row has it |
| Dao.FindWord | app/src/main/java/com/wordtracker/data/WordDao.kt:22-23 | the word lookup finds the first position holding the word, and finds none iff no row has it |
| Dao.GetWord | app/src/main/java/com/wordtracker/data/WordDao.kt:22-23 | getWord returns a row whose word equals the key exactly, and returns null iff no row has that word |
| Dao.GetWordFirst | app/src/main/java/com/wordtracker/data/WordDao.kt:22-23 | the row returned is the first row in table order with that word |
| Dao.GetWordUnique | app/src/main/java/com/wordtracker/data/WordDao.kt:22-23 | with unique words, getWord returns the one row holding the word |
| Dao.InsertedSpec | app/src/main/java/com/wordtracker/data/WordDao.kt:25-26 | IGNORE: an explicit id that is already used leaves the table unchanged and returns -1. Otherwise exactly one row is appended under a fresh id: the next counter value for id 0, the given id otherwise. The table invariant holds afterwards |
| Dao.Inserted | app/src/main/java/com/wordtracker/data/WordDao.kt:25-26 | `@Insert(onConflict = IGNORE)` on the table value; stated by `Dao.InsertedSpec` and `Dao.WordCountSpec` |
| Dao.InsertNewWordAssignsId | WordTracker_Project/app/src/main/java/com/wordtracker/data/Word.kt:9-19 | a `Word` built with its defaults (id 0) always goes in, under the next id, with the caller's date, usage count 1, not a favourite, and null definition, pronunciation, part of speech, source and copied text |
| Dao.IncrementedSpec | app/src/main/java/com/wordtracker/data/WordDao.kt:40-41 | exactly the row with the id gains one use and nothing else changes; an unknown id is a no-op |
| Dao.Incremented | app/src/main/java/com/wordtracker/data/WordDao.kt:40-41 | the usage UPDATE on the table value; stated by `Dao.IncrementedSpec` |
| Dao.WithFavoriteSpec | app/src/main/java/com/wordtracker/data/WordDao.kt:43-44 | exactly the row with the id takes the flag and nothing else changes |
| Dao.WithFavoriteIdempotent | app/src/main/java/com/wordtracker/data/WordDao.kt:43-44 | setting the flag twice equals setting it once |
| Dao.WithFavorite | app/src/main/java/com/wordtracker/data/WordDao.kt:43-44 | the favourite UPDATE on the table value; stated by `Dao.WithFavoriteSpec` and `Dao.WithFavoriteIdempotent` |
| Dao.UpdatedSpec | app/src/main/java/com/wordtracker/data/WordDao.kt:28-29 | `@Update` replaces exactly the row with the entity's id and keeps the AUTOINCREMENT counter |
| Dao.Updated | app/src/main/java/com/wordtracker/data/WordDao.kt:28-29 | `@Update` on the table value; stated by `Dao.UpdatedSpec` |
| Dao.DeletedSpec | app/src/main/java/com/wordtracker/data/WordDao.kt:31-32 | `@Delete` keeps every row except the one with the entity's id, in order |
| Dao.RemoveAtIsFilter | app/src/main/java/com/wordtracker/data/WordDao.kt:31-32 | with a primary key, removing the row at one position is filtering out its id |
| Dao.Deleted | app/src/main/java/com/wordtracker/data/WordDao.kt:31-32 | `@Delete` on the table value; stated by `Dao.DeletedSpec` |
| Dao.ClearedSpec | app/src/main/java/com/wordtracker/data/WordDao.kt:34-35 | after `DELETE FROM words` the count is 0 and the listing is empty; the AUTOINCREMENT counter is not reset |
| Dao.Cleared | app/src/main/java/com/wordtracker/data/WordDao.kt:34-35 | `DELETE FROM words` on the table value; stated by `Dao.ClearedSpec` |
| Dao.WordCountSpec | app/src/main/java/com/wordtracker/data/WordDao.kt:37-38 | the count follows every statement: +1 for an insert that is not ignored, -1 for a delete of a present id, unchanged for the updates |
| Dao.WordCount | app/src/main/java/com/wordtracker/data/WordDao.kt:37-38 | `SELECT COUNT(*)`; stated by `Dao.WordCountSpec` |
| Dao.IncrementedKeepsUniqueWords | app/src/main/java/com/wordtracker/data/WordDao.kt:40-41 | the usage UPDATE keeps words unique |
| Dao.WithFavoriteKeepsUniqueWords | app/src/main/java/com/wordtracker/data/WordDao.kt:43-44 | the favourite UPDATE keeps words unique |
| Dao.DeletedKeepsUniqueWords | app/src/main/java/com/wordtracker/data/WordDao.kt:31-35 | `@Delete` and `DELETE FROM words` keep words unique, so toggles and deletes between clipboard events preserve what the ingestion relies on |
| Dao.AllWordsSpec | app/src/main/java/com/wordtracker/data/WordDao.kt:10-11 | the listing holds every row, as often as in the table, newest first |
| Dao.AllWords | app/src/main/java/com/wordtracker/data/WordDao.kt:10-11 | the full listing; stated by `Dao.AllWordsSpec` |
| Dao.FavoriteWordsSpec | app/src/main/java/com/wordtracker/data/WordDao.kt:16-17 | exactly the favourite rows, each as often as in the table, newest first |
| Dao.FavoriteWords | app/src/main/java/com/wordtracker/data/WordDao.kt:16-17 | the favourites listing; stated by `Dao.FavoriteWordsSpec` |
| Dao.RecentWordsSpec | app/src/main/java/com/wordtracker/data/WordDao.kt:19-20 | the recent list is the first min(50, n) rows of the full listing |
| Dao.RecentWords | app/src/main/java/com/wordtracker/data/WordDao.kt:19-20 | the recent listing; stated by `Dao.RecentWordsSpec` |
| Dao.LikePrefix | app/src/main/java/com/wordtracker/data/WordDao.kt:13-14 | without wildcards, `q%` matches exactly the strings that start with `q` up to case |
| Dao.LikeLeadingPercent | app/src/main/java/com/wordtracker/data/WordDao.kt:13-14 | a leading `%` matches iff the rest of the pattern matches some suffix |
| Dao.LikeContains | app/src/main/java/com/wordtracker/data/WordDao.kt:13-14 | without wildcards, `%q%` matches exactly the strings that contain `q` up to case |
| Dao.Like | app/src/main/java/com/wordtracker/data/WordDao.kt:13-14 | SQLite `LIKE` with `%` and `_`, ASCII case-insensitive; stated by `Dao.LikePrefix`, `Dao.LikeLeadingPercent` and `Dao.LikeContains` |
| Dao.SearchWordsSpec | app/src/main/java/com/wordtracker/data/WordDao.kt:13-14 | the search holds exactly the rows whose word matches, or whose non-null definition matches, each as often as in the table, newest first |
| Dao.SearchWords | app/src/main/java/com/wordtracker/data/WordDao.kt:13-14 | the LIKE search; stated by `Dao.SearchWordsSpec` |
| Dao.WordDao.constructor | app/src/main/java/com/wordtracker/data/WordDao.kt:7-8 | a new database is empty and valid |
| Dao.WordDao.InsertWord | app/src/main/java/com/wordtracker/data/WordDao.kt:25-26 | the table and the returned row id are those of `Inserted` |
| Dao.WordDao.UpdateWord | app/src/main/java/com/wordtracker/data/WordDao.kt:28-29 | the new table is `Updated` of the old one and stays valid |
| Dao.WordDao.DeleteWord | app/src/main/java/com/wordtracker/data/WordDao.kt:31-32 | the new table is `Deleted` of the old one and stays valid |
| Dao.WordDao.DeleteAllWords | app/src/main/java/com/wordtracker/data/WordDao.kt:34-35 | the new table is `Cleared` of the old one |
| Dao.WordDao.IncrementUsageCount | app/src/main/java/com/wordtracker/data/WordDao.kt:40-41 | the new table is `Incremented` of the old one and stays valid |
| Dao.WordDao.SetFavorite | app/src/main/java/com/wordtracker/data/WordDao.kt:43-44 | the new table is `WithFavorite` of the old one and stays valid |
| Ingestion.NewEntry | WordTracker_Project/app/src/main/java/com/wordtracker/repository/WordRepository.kt:42-53 | the row built for a new token; its fields are stated by `Ingestion.AbsentTokenInserts` and `Ingestion.FailedLookupStillInserts` |
| Ingestion.IngestToken | WordTracker_Project/app/src/main/java/com/wordtracker/repository/WordRepository.kt:35-58 | one loop iteration on the table value; stated by `Ingestion.ExistingTokenIncrements`, `AbsentTokenInserts` and `IngestTokenKeepsInvariants`; a token whose store call throws adds no use and no row (`IngestTokenUsage`, `IngestPrefixUsage`, `HandledTokensAreStored`) |
| Ingestion.Ingest | WordTracker_Project/app/src/main/java/com/wordtracker/repository/WordRepository.kt:31-60 | the whole call on the table value; stated by `Ingestion.IngestKeepsUniqueWords` and `Ingestion.FaultFreeEvent` |
| Ingestion.ExistingTokenIncrements | WordTracker_Project/app/src/main/java/com/wordtracker/repository/WordRepository.kt:36-40 | for a stored key, that row's usage count rises by exactly one. Every other field and every other row are unchanged. The outcome is the same whatever the dictionary would answer, so no lookup matters |
| Ingestion.AbsentTokenInserts | WordTracker_Project/app/src/main/java/com/wordtracker/repository/WordRepository.kt:42-53 | for an absent key, exactly one row is appended. It has a fresh id, the lower-cased token, usage 1, is not a favourite, and carries the call's source, copied text and time and the reduced enrichment |
| Ingestion.FailedLookupStillInserts | WordTracker_Project/app/src/main/java/com/wordtracker/repository/WordRepository.kt:69-93 | when the lookup throws, is unsuccessful, has no body or an empty list, the row is still inserted, with null definition, pronunciation and part of speech |
| Ingestion.IngestTokenKeepsInvariants | WordTracker_Project/app/src/main/java/com/wordtracker/repository/WordRepository.kt:35-58 | one token keeps the primary key and counter invariant, never shrinks the table, and keeps words unique |
| Ingestion.IngestTokenKeepsUniqueWords | WordTracker_Project/app/src/main/java/com/wordtracker/repository/WordRepository.kt:36-53 | the lookup-before-insert never adds a second row for a word |
| Ingestion.IngestPrefixValid | WordTracker_Project/app/src/main/java/com/wordtracker/repository/WordRepository.kt:34-59 | a whole event keeps the table invariant |
| Ingestion.IngestPrefixUniqueWords | WordTracker_Project/app/src/main/java/com/wordtracker/repository/WordRepository.kt:34-55 | handled one event at a time, `word` stays unique although the schema has no unique index |
| Ingestion.IngestKeepsUniqueWords | WordTracker_Project/app/src/main/java/com/wordtracker/repository/WordRepository.kt:31-60 | the whole call keeps the table invariant and unique words |
| Ingestion.IncrementedAt | app/src/main/java/com/wordtracker/data/WordDao.kt:40-41 | incrementing a row's id raises exactly that position's usage count |
| Ingestion.IngestTokenUsage | WordTracker_Project/app/src/main/java/com/wordtracker/repository/WordRepository.kt:36-53 | a handled token adds exactly one use to its key and to the total; a faulted one adds none |
| Ingestion.IngestPrefixUsage | WordTracker_Project/app/src/main/java/com/wordtracker/repository/WordRepository.kt:34-59 | over an event, each key gains exactly one use per handled token that folds to it. The total grows by exactly the number of handled tokens |
| Ingestion.HandledWithoutFaults | WordTracker_Project/app/src/main/java/com/wordtracker/repository/WordRepository.kt:34-59 | with no store faults every token is handled |
| Ingestion.FaultFreeEvent | WordTracker_Project/app/src/main/java/com/wordtracker/repository/WordRepository.kt:34-55 | when no store call throws, words stay distinct, every extracted token's lower-case form is stored, and the total usage grows by exactly the number of tokens |
| Ingestion.IngestTokenKeepsWords | WordTracker_Project/app/src/main/java/com/wordtracker/repository/WordRepository.kt:36-53 | one token removes and renames no row, and a handled token's key is stored afterwards |
| Ingestion.IngestTokenStores | WordTracker_Project/app/src/main/java/com/wordtracker/repository/WordRepository.kt:36-53 | a stored key stays stored, and a handled token's key becomes stored |
| Ingestion.HandledTokensAreStored | WordTracker_Project/app/src/main/java/com/wordtracker/repository/WordRepository.kt:34-59 | after an event, every handled token's key is stored |
| Ingestion.CaseVariantsShareOneRow | WordTracker_Project/app/src/main/java/com/wordtracker/repository/WordRepository.kt:34-55 | two handled spellings of one word in one event end up in one row, used at least twice more than before: the later spelling raises the row the earlier one created or found |
| Repository.SearchFindsSubstrings | WordTracker_Project/app/src/main/java/com/wordtracker/repository/WordRepository.kt:23 | searchWords finds exactly the rows whose word, or non-null definition, contains the query up to case, newest first |
| Repository.WordRepository.AllWords | WordTracker_Project/app/src/main/java/com/wordtracker/repository/WordRepository.kt:21 | `getAllWords` forwards to the DAO listing; stated by `Dao.AllWordsSpec` |
| Repository.WordRepository.SearchWords | WordTracker_Project/app/src/main/java/com/wordtracker/repository/WordRepository.kt:23 | `searchWords` wraps the query in `%`; stated by `Repository.SearchFindsSubstrings` and `Dao.SearchWordsSpec` |
| Repository.WordRepository.FavoriteWords | WordTracker_Project/app/src/main/java/com/wordtracker/repository/WordRepository.kt:25 | `getFavoriteWords` forwards to the DAO; stated by `Dao.FavoriteWordsSpec` |
| Repository.WordRepository.RecentWords | WordTracker_Project/app/src/main/java/com/wordtracker/repository/WordRepository.kt:27 | `getRecentWords` forwards to the DAO; stated by `Dao.RecentWordsSpec` |
| Repository.WordRepository.WordCount | WordTracker_Project/app/src/main/java/com/wordtracker/repository/WordRepository.kt:29 | `getWordCount` forwards to the DAO; stated by `Dao.WordCountSpec` |
| Repository.WordRepository.constructor | WordTracker_Project/app/src/main/java/com/wordtracker/repository/WordRepository.kt:11-14 | the repository works on the DAO it is given |
| Repository.WordRepository.AddWordFromClipboard | WordTracker_Project/app/src/main/java/com/wordtracker/repository/WordRepository.kt:31-60 | the loop leaves the table that `Ingest` specifies for the event, and a valid table stays valid |
| Repository.WordRepository.AddToken | WordTracker_Project/app/src/main/java/com/wordtracker/repository/WordRepository.kt:35-58 | one iteration, with its try/catch, leaves the table that `IngestToken` specifies |
| Repository.WordRepository.ToggleFavorite | WordTracker_Project/app/src/main/java/com/wordtracker/repository/WordRepository.kt:96-98 | forwards to setFavorite |
| Repository.WordRepository.DeleteWord | WordTracker_Project/app/src/main/java/com/wordtracker/repository/WordRepository.kt:100-102 | forwards to deleteWord |
| Repository.WordRepository.DeleteAllWords | WordTracker_Project/app/src/main/java/com/wordtracker/repository/WordRepository.kt:104-106 | forwards to deleteAllWords |
| ViewModel.FilteredSpec | app/src/main/java/com/wordtracker/viewmodel/WordViewModel.kt:25-41 | a blank query shows the list unchanged. Otherwise the result is the order-preserving sublist of exactly the words whose word or definition contains the query up to case, each as often as in the list. A word with a null definition is kept only if its word matches |
| ViewModel.Filtered | app/src/main/java/com/wordtracker/viewmodel/WordViewModel.kt:25-41 | `filteredWords` as a function of the list and the query; stated by `ViewModel.FilteredSpec` |
| ViewModel.WordViewModel.FilteredWords | app/src/main/java/com/wordtracker/viewmodel/WordViewModel.kt:25-41 | the `combine` of the full listing and the current query, through `Filtered`; stated by `ViewModel.FilteredSpec` |
| ViewModel.FilterAgreesWithSearch | app/src/main/java/com/wordtracker/viewmodel/WordViewModel.kt:25-41 | on the full listing, the in-memory filter and the DAO search find the same words |
| ViewModel.WordViewModel.constructor | app/src/main/java/com/wordtracker/viewmodel/WordViewModel.kt:11-18 | initially the query is empty, the service is disabled and nothing is selected |
| ViewModel.WordViewModel.SetSearchQuery | app/src/main/java/com/wordtracker/viewmodel/WordViewModel.kt:43-45 | overwrites the query and nothing else |
| ViewModel.WordViewModel.SetServiceEnabled | app/src/main/java/com/wordtracker/viewmodel/WordViewModel.kt:47-49 | overwrites the service flag and nothing else |
| ViewModel.WordViewModel.ToggleService | app/src/main/java/com/wordtracker/viewmodel/WordViewModel.kt:51-53 | negates the service flag, so two toggles restore it, and changes nothing else |
| ViewModel.WordViewModel.SelectWord | app/src/main/java/com/wordtracker/viewmodel/WordViewModel.kt:55-57 | selects the word and changes nothing else |
| ViewModel.WordViewModel.ClearSelectedWord | app/src/main/java/com/wordtracker/viewmodel/WordViewModel.kt:59-61 | leaves no selection and changes nothing else |
| ViewModel.WordViewModel.ToggleFavorite | app/src/main/java/com/wordtracker/viewmodel/WordViewModel.kt:63-67 | asks the store to set the favourite flag of `w.id` to `!w.isFavorite` |
| ViewModel.WordViewModel.DeleteWord | app/src/main/java/com/wordtracker/viewmodel/WordViewModel.kt:69-73 | deletes the word's row |
| ViewModel.WordViewModel.DeleteAllWords | app/src/main/java/com/wordtracker/viewmodel/WordViewModel.kt:75-79 | empties the table |
| Service.ForwardedTextSpec | app/src/main/java/com/wordtracker/service/ClipboardService.kt:90-93 | text is forwarded iff the clip is non-null, has an item, and its first item's text is non-null and not blank. What is forwarded is that text, whatever later items hold |
| Service.ForwardedText | app/src/main/java/com/wordtracker/service/ClipboardService.kt:90-97 | the listener guard; stated by `Service.ForwardedTextSpec` and `Service.BlankClipIsNoOp` |
| Service.BlankClipIsNoOp | app/src/main/java/com/wordtracker/service/ClipboardService.kt:93-97 | the guard's blank check only drops text that would have changed nothing |
| Service.DispatchedSpec | app/src/main/java/com/wordtracker/service/ClipboardService.kt:47-52 | monitoring ends exactly on STOP, or on TOGGLE while monitoring; any other or absent action starts it. Repeated START or STOP equals one; two TOGGLEs cancel out |
| Service.Dispatched | app/src/main/java/com/wordtracker/service/ClipboardService.kt:47-52 | the monitoring flag after a command; stated by `Service.DispatchedSpec` |
| Service.ClipboardService.constructor | app/src/main/java/com/wordtracker/service/ClipboardService.kt:34-42 | created not monitoring, with no listener registered |
| Service.ClipboardService.StartMonitoring | app/src/main/java/com/wordtracker/service/ClipboardService.kt:57-66 | afterwards monitoring is on and the listener registered; when already monitoring, nothing changes |
| Service.ClipboardService.StopMonitoring | app/src/main/java/com/wordtracker/service/ClipboardService.kt:68-77 | afterwards monitoring is off and the listener unregistered; when not monitoring, nothing changes |
| Service.ClipboardService.ToggleMonitoring | app/src/main/java/com/wordtracker/service/ClipboardService.kt:79-85 | flips monitoring, keeping registration in step |
| Service.ClipboardService.OnStartCommand | app/src/main/java/com/wordtracker/service/ClipboardService.kt:44-55 | monitoring ends up as `Dispatched` says, registration stays in step, and the result is START_STICKY |
| Service.ClipboardService.OnPrimaryClipChanged | app/src/main/java/com/wordtracker/service/ClipboardService.kt:87-106 | the table is unchanged when the guard drops the clip, and is `Ingest` of the forwarded text otherwise |
| Service.ClipboardService.ClipboardChanged | app/src/main/java/com/wordtracker/service/ClipboardService.kt:87-88 | a clipboard change reaches the listener only while it is registered and its scope is alive |
| Service.ClipboardService.OnDestroy | app/src/main/java/com/wordtracker/service/ClipboardService.kt:161-170 | afterwards no listener is registered and the scope is cancelled; the monitoring flag is kept |
| Service.ClipboardService.IsServiceMonitoring | app/src/main/java/com/wordtracker/service/ClipboardService.kt:176-178 | reports the monitoring flag |

## Left out

- Concurrency is not modelled. The listener launches one coroutine per clipboard change, so overlapping events could both miss a word and both insert it; with no unique index that yields duplicate rows. The model handles one event at a time, and its uniqueness lemmas hold only under that discipline.
- The dictionary call is an input (`Oracle.lookup`). Retrofit, `withContext(Dispatchers.IO)` and the network are not modelled; the response classes keep `word`, `phonetic` and `meanings` of an entry, `partOfSpeech` and `definitions` of a meaning, and `definition` and `example` of a definition; `phonetics`, `synonyms`, `antonyms`, `license` and `sourceUrls` are left out, as nothing in the core reads them.
- `Log`, `Toast`, notifications (`startForeground`, `updateNotification`) and the clipboard manager itself are side effects and are not modelled. Listener registration is a flag.
- `detectSourceApp` uses the activity manager. Its result is the `source` input of `ClipEvent`.
- `Date()` is a caller-supplied integer. All rows inserted for one event share one clock reading.
- Flow, LiveData and `stateIn` reactivity are not modelled. Queries and `filteredWords` are functions of the current table and state.
- The outer try/catch of the listener (`ClipboardService.kt:89-104`) is not modelled. The store's exceptions are modelled per token, each DAO statement all-or-nothing: a token whose store call throws leaves the table as it was, by definition of `Ingestion.IngestToken`. Which of `getWord`, `incrementUsageCount` or `insertWord` threw is not distinguished.
- The UI screens, `MainActivity`, `BootReceiver`, `WordTrackerApplication` and the `WordViewModelFactory` are not part of this model.
- Collections.SortDescSpec: in the queries, ties in `dateAdded` are ordered as a stable sort would leave them. SQLite leaves the order of ties unspecified.
- Dao.GetWordFirst: `WHERE word = :word LIMIT 1` has no `ORDER BY`, so SQLite may return any matching row. Returning the first in table order is a choice of the model; with unique words (`Dao.GetWordUnique`) there is only one candidate.
- Text.Lower: case mapping and case-insensitive comparison cover ASCII letters only, not Unicode.
- Dao.Like: the `LIKE` collation is the default one, ASCII case-insensitive; a `LIKE` on non-ASCII letters compares them exactly.
- Repository.SearchFindsSubstrings: `%` and `_` in the query are not escaped by the repository. The lemma covers queries without them. With them, `Dao.SearchWordsSpec` still holds in terms of `Like`.
- ViewModel.FilterAgreesWithSearch: stated for queries without `%` or `_`, for the same reason, and only for non-blank queries. For a blank query the two differ: `filteredWords` returns the whole list, while `searchWords(" ")` finds only rows containing a space.
- Ingestion.IngestPrefixUsage: `usageCount` is an unbounded integer. A Kotlin `Int` would wrap after 2^31 - 1 uses.
- The `WordDao` class keeps `nextId` as the AUTOINCREMENT counter. Room's id type is `Long`, and its overflow is not modelled.
- `getWordCount` returns a `LiveData<Int>`. It is modelled as the current number of rows.

=== FILE: clipboard_service.dfy ===
/** ClipboardService: the monitoring switch, the registration of the
    clipboard listener, the dispatch of start commands, the guard the
    listener applies before handing copied text to the repository, and
    tear-down. Registration with the clipboard manager is a flag; the
    coroutine scope the listener runs in is a flag that tear-down clears. */
module Service {
  import opened Collections
  import opened Text
  import opened Dao
  import opened Tokenizer
  import opened Ingestion
  import opened Repository

  const ACTION_TOGGLE_SERVICE: string := "com.wordtracker.TOGGLE_SERVICE"
  const ACTION_START_SERVICE: string := "com.wordtracker.START_SERVICE"
  const ACTION_STOP_SERVICE: string := "com.wordtracker.STOP_SERVICE"

  /** Android's Service.START_STICKY. */
  const START_STICKY: int := 1

  /** One item of a clip: its text, when it has any. */
  datatype ClipItem = ClipItem(text: Option<string>)

  /** The primary clip: its items in order. */
  datatype ClipData = ClipData(items: seq<ClipItem>)

  /** The listener's guard: the text of the first item of a non-null,
      non-empty clip, provided that text is non-null and not blank. */
  function ForwardedText(clip: Option<ClipData>): (r: Option<string>)
  {
    if clip.Some? && |clip.value.items| > 0 then
      match clip.value.items[0].text
      case Some(text) => if IsBlank(text) then None else Some(text)
      case None => None
    else None
  }

  /** Text is forwarded exactly when the clip is present, has an item, and
      that first item has text that is not blank; what is forwarded is
      that text, whatever the later items hold. */
  lemma {:induction false} ForwardedTextSpec(clip: Option<ClipData>)
    ensures ForwardedText(clip).Some? <==>
      && clip.Some? && |clip.value.items| > 0
      && clip.value.items[0].text.Some? && !IsBlank(clip.value.items[0].text.value)
    ensures ForwardedText(clip).Some? ==> ForwardedText(clip).value == clip.value.items[0].text.value
    ensures forall more :: clip.Some? && |clip.value.items| > 0 ==>
      ForwardedText(Some(ClipData([clip.value.items[0]] + more))) == ForwardedText(clip)
  {
  }

  /** Dropping blank text costs nothing: handing it on would have left the
      table as it was. */
  lemma {:induction false} BlankClipIsNoOp(t: Table, text: string, source: Option<string>, now: int, oracle: Oracle)
    requires IsBlank(text)
    ensures Ingest(t, ClipEvent(text, source, now), oracle) == t
  {
    BlankTextHasNoTokens(text);
  }

  /** The monitoring state `isMonitoring` an onStartCommand with `action`
      leaves behind, from `was`. */
  function Dispatched(action: Option<string>, was: bool): (now: bool)
  {
    if action == Some(ACTION_START_SERVICE) then true
    else if action == Some(ACTION_STOP_SERVICE) then false
    else if action == Some(ACTION_TOGGLE_SERVICE) then !was
    else true
  }

  /** Monitoring ends exactly on a stop command, or on a toggle while
      monitoring; any other or absent action starts it. A repeated start or stop command is the
      same as one; two toggles cancel out. */
  lemma {:induction false} DispatchedSpec(action: Option<string>, was: bool)
    ensures !Dispatched(action, was) <==>
      action == Some(ACTION_STOP_SERVICE) || (action == Some(ACTION_TOGGLE_SERVICE) && was)
    ensures action != Some(ACTION_STOP_SERVICE) && action != Some(ACTION_TOGGLE_SERVICE) ==>
      Dispatched(action, was)
    ensures action != Some(ACTION_TOGGLE_SERVICE) ==>
      Dispatched(action, Dispatched(action, was)) == Dispatched(action, was)
    ensures Dispatched(Some(ACTION_TOGGLE_SERVICE), Dispatched(Some(ACTION_TOGGLE_SERVICE), was)) == was
  {
  }

  class ClipboardService {
    const repository: WordRepository
    var isMonitoring: bool
    var listenerRegistered: bool
    var scopeActive: bool

    /** While the service lives, the listener is registered exactly when
        monitoring is on. */
    ghost predicate Valid()
      reads this
    {
      scopeActive && listenerRegistered == isMonitoring
    }

    /** onCreate: created idle, nothing registered. */
    constructor (repository: WordRepository)
      ensures Valid() && !isMonitoring
      ensures this.repository == repository
    {
      this.repository := repository;
      isMonitoring := false;
      listenerRegistered := false;
      scopeActive := true;
    }

    /** Turns monitoring on and registers the listener; a no-op when
        already monitoring. */
    method StartMonitoring()
      requires Valid()
      modifies this
      ensures Valid() && isMonitoring
      ensures old(isMonitoring) ==> unchanged(this)
    {
      if isMonitoring {
        return;
      }
      isMonitoring := true;
      listenerRegistered := true;
    }

    /** Turns monitoring off and unregisters the listener; a no-op when not
        monitoring. */
    method StopMonitoring()
      requires Valid()
      modifies this
      ensures Valid() && !isMonitoring
      ensures !old(isMonitoring) ==> unchanged(this)
    {
      if !isMonitoring {
        return;
      }
      isMonitoring := false;
      listenerRegistered := false;
    }

    method ToggleMonitoring()
      requires Valid()
      modifies this
      ensures Valid() && isMonitoring == !old(isMonitoring)
    {
      if isMonitoring {
        StopMonitoring();
      } else {
        StartMonitoring();
      }
    }

    /** onStartCommand: START starts, STOP stops, TOGGLE toggles, any other
        or absent action starts; the service asks to be restarted. */
    method OnStartCommand(action: Option<string>) returns (r: int)
      requires Valid()
      modifies this
      ensures Valid()
      ensures isMonitoring == Dispatched(action, old(isMonitoring))
      ensures r == START_STICKY
    {
      if action == Some(ACTION_START_SERVICE) {
        StartMonitoring();
      } else if action == Some(ACTION_STOP_SERVICE) {
        StopMonitoring();
      } else if action == Some(ACTION_TOGGLE_SERVICE) {
        ToggleMonitoring();
      } else {
        StartMonitoring();
      }
      r := START_STICKY;
    }

    /** The listener body: forwards the guarded text, with the detected
        source app and the clock reading, to addWordFromClipboard. */
    method OnPrimaryClipChanged(clip: Option<ClipData>, source: Option<string>, now: int, oracle: Oracle)
      requires repository.dao.Valid()
      modifies repository.dao
      ensures repository.dao.Valid()
      ensures repository.dao.State() ==
        match ForwardedText(clip)
        case None => old(repository.dao.State())
        case Some(text) => Ingest(old(repository.dao.State()), ClipEvent(text, source, now), oracle)
    {
      var copiedText := ForwardedText(clip);
      if copiedText.Some? {
        repository.AddWordFromClipboard(copiedText.value, source, now, oracle);
      }
    }

    /** The clipboard manager reports a change: the listener runs only while
        it is registered and its scope is alive. */
    method ClipboardChanged(clip: Option<ClipData>, source: Option<string>, now: int, oracle: Oracle)
      requires repository.dao.Valid()
      modifies repository.dao
      ensures repository.dao.Valid()
      ensures !(listenerRegistered && scopeActive) ==> repository.dao.State() == old(repository.dao.State())
      ensures listenerRegistered && scopeActive ==>
        repository.dao.State() ==
          match ForwardedText(clip)
          case None => old(repository.dao.State())
          case Some(text) => Ingest(old(repository.dao.State()), ClipEvent(text, source, now), oracle)
    {
      if listenerRegistered && scopeActive {
        OnPrimaryClipChanged(clip, source, now, oracle);
      }
    }

    /** onDestroy: unregisters the listener if monitoring was on and cancels
        the listener's scope; the monitoring flag itself is left as it was. */
    method OnDestroy()
      requires Valid()
      modifies this
      ensures !listenerRegistered && !scopeActive
      ensures isMonitoring == old(isMonitoring)
    {
      if isMonitoring {
        listenerRegistered := false;
      }
      scopeActive := false;
    }

    method IsServiceMonitoring() returns (r: bool)
      ensures r == isMonitoring
    {
      r := isMonitoring;
    }
  }
}

=== FILE: collections.dfy ===
/** Sequence utilities shared by the model: Kotlin's nullable values, the
    list operations the app uses (firstOrNull, filter, distinct, take) and
    the stable ordering a descending ORDER BY produces. */
module Collections {

  /** A Kotlin nullable value: `None` stands for null. */
  datatype Option<+T> = None | Some(value: T)

  /** Kotlin's firstOrNull on a list. */
  function FirstOrNone<T>(s: seq<T>): (r: Option<T>)
    ensures r.None? <==> |s| == 0
    ensures r.Some? ==> r.value == s[0]
  {
    if |s| == 0 then None else Some(s[0])
  }

  /** `r` can be obtained from `s` by deleting elements: the order is kept. */
  predicate SubsequenceOf<T(==)>(r: seq<T>, s: seq<T>)
    decreases |s|
  {
    if |r| == 0 then true
    else if |s| == 0 then false
    else if r[0] == s[0] then SubsequenceOf(r[1..], s[1..])
    else SubsequenceOf(r, s[1..])
  }

  /** Kotlin's order-preserving `filter`. */
  function Filter<T>(s: seq<T>, p: T -> bool): seq<T>
    decreases |s|
  {
    if |s| == 0 then []
    else if p(s[0]) then [s[0]] + Filter(s[1..], p)
    else Filter(s[1..], p)
  }

  /** A filter keeps exactly the elements that pass, as often as they
      occur, in their original order. */
  lemma {:induction false} FilterSpec<T(!new)>(s: seq<T>, p: T -> bool)
    ensures forall x :: x in Filter(s, p) <==> x in s && p(x)
    ensures forall x :: multiset(Filter(s, p))[x] == if p(x) then multiset(s)[x] else 0
    ensures SubsequenceOf(Filter(s, p), s)
    decreases |s|
  {
    if |s| > 0 {
      FilterSpec(s[1..], p);
      var rest := Filter(s[1..], p);
      assert s == [s[0]] + s[1..];
      if !p(s[0]) {
        assert |rest| > 0 ==> rest[0] in rest;
      }
    }
  }

  /** A filter that no element passes yields nothing. */
  lemma {:induction false} FilterNone<T>(s: seq<T>, p: T -> bool)
    requires forall i :: 0 <= i < |s| ==> !p(s[i])
    ensures Filter(s, p) == []
    decreases |s|
  {
    if |s| > 0 {
      FilterNone(s[1..], p);
    }
  }

  /** `Filter` distributes over concatenation. */
  lemma {:induction false} FilterAppend<T>(a: seq<T>, b: seq<T>, p: T -> bool)
    ensures Filter(a + b, p) == Filter(a, p) + Filter(b, p)
    decreases |a|
  {
    if |a| > 0 {
      assert (a + b)[1..] == a[1..] + b;
      FilterAppend(a[1..], b, p);
    } else {
      assert a + b == b;
    }
  }

  /** A filter that every element passes keeps the whole sequence. */
  lemma {:induction false} FilterAll<T>(s: seq<T>, p: T -> bool)
    requires forall i :: 0 <= i < |s| ==> p(s[i])
    ensures Filter(s, p) == s
    decreases |s|
  {
    if |s| > 0 {
      FilterAll(s[1..], p);
    }
  }

  /** No element occurs twice. */
  predicate NoDuplicates<T(==)>(s: seq<T>) {
    forall i, j :: 0 <= i < j < |s| ==> s[i] != s[j]
  }

  /** Position of the first occurrence of `x` in `s`. */
  function FirstIndex<T(==)>(s: seq<T>, x: T): (k: nat)
    requires x in s
    ensures k < |s| && s[k] == x && x !in s[..k]
    decreases |s|
  {
    if s[0] == x then 0
    else
      var k := 1 + FirstIndex(s[1..], x);
      assert s[..k] == [s[0]] + s[1..][..k - 1];
      k
  }

  /** Appending at the end does not move an existing first occurrence. */
  lemma {:induction false} FirstIndexSnoc<T>(s: seq<T>, y: T, x: T)
    requires x in s
    ensures FirstIndex(s + [y], x) == FirstIndex(s, x)
    decreases |s|
  {
    assert (s + [y])[0] == s[0];
    if s[0] != x {
      assert (s + [y])[1..] == s[1..] + [y];
      FirstIndexSnoc(s[1..], y, x);
    }
  }

  /** An element new to `s` first occurs where it is appended. */
  lemma {:induction false} FirstIndexAppendNew<T>(s: seq<T>, x: T)
    requires x !in s
    ensures FirstIndex(s + [x], x) == |s|
  {
    assert (s + [x])[|s|] == x;
  }

  /** Kotlin's `distinct`: the first occurrence of every element, in order
      of first occurrence (what a LinkedHashSet yields). */
  function Distinct<T(==)>(s: seq<T>): (r: seq<T>)
    decreases |s|
  {
    if |s| == 0 then []
    else
      var d := Distinct(s[..|s| - 1]);
      if s[|s| - 1] in d then d else d + [s[|s| - 1]]
  }

  /** `Distinct` keeps exactly the elements of `s`, once each, ordered by
      where they first occur in `s`. */
  lemma {:induction false} DistinctSpec<T>(s: seq<T>)
    ensures NoDuplicates(Distinct(s))
    ensures forall x :: x in Distinct(s) <==> x in s
    ensures forall i, j :: 0 <= i < j < |Distinct(s)| ==>
              FirstIndex(s, Distinct(s)[i]) < FirstIndex(s, Distinct(s)[j])
    decreases |s|
  {
    if |s| > 0 {
      var p, y := s[..|s| - 1], s[|s| - 1];
      assert s == p + [y];
      DistinctSpec(p);
      var d := Distinct(p);
      forall x | x in p ensures FirstIndex(s, x) == FirstIndex(p, x) {
        FirstIndexSnoc(p, y, x);
      }
      if y !in d {
        FirstIndexAppendNew(p, y);
        var r := d + [y];
        forall i, j | 0 <= i < j < |r| ensures FirstIndex(s, r[i]) < FirstIndex(s, r[j]) {
          assert r[i] == d[i] && d[i] in d;
          if j == |d| {
            assert FirstIndex(p, d[i]) < |p|;
          } else {
            assert r[j] == d[j] && d[j] in d;
          }
        }
      }
    }
  }

  /** A filter keeps the relative order of first occurrences. */
  lemma {:induction false} FilterKeepsFirstOrder<T(!new)>(s: seq<T>, p: T -> bool, x: T, y: T)
    requires x in Filter(s, p) && y in Filter(s, p)
    requires FirstIndex(Filter(s, p), x) < FirstIndex(Filter(s, p), y)
    ensures x in s && y in s && FirstIndex(s, x) < FirstIndex(s, y)
    decreases |s|
  {
    FilterSpec(s, p);
    FilterSpec(s[1..], p);
    var f, rest := Filter(s, p), Filter(s[1..], p);
    if s[0] == x {
    } else if s[0] == y {
      assert false;
    } else {
      assert x in s[1..] && y in s[1..];
      if p(s[0]) {
        assert f == [s[0]] + rest;
        assert f[1..] == rest;
      } else {
        assert f == rest;
      }
      FilterKeepsFirstOrder(s[1..], p, x, y);
    }
  }

  /** Deduplicating a filtered sequence keeps the order in which the
      survivors first occur in the unfiltered one. */
  lemma {:induction false} DistinctFilterOrder<T(!new)>(s: seq<T>, p: T -> bool, i: nat, j: nat)
    requires i < j < |Distinct(Filter(s, p))|
    ensures Distinct(Filter(s, p))[i] in s && Distinct(Filter(s, p))[j] in s
    ensures FirstIndex(s, Distinct(Filter(s, p))[i]) < FirstIndex(s, Distinct(Filter(s, p))[j])
  {
    var d := Distinct(Filter(s, p));
    DistinctSpec(Filter(s, p));
    assert d[i] in d && d[j] in d;
    FilterKeepsFirstOrder(s, p, d[i], d[j]);
  }

  /** Kotlin's `map`. */
  function Map<T, U>(s: seq<T>, f: T -> U): (r: seq<U>)
    ensures |r| == |s|
    ensures forall i :: 0 <= i < |s| ==> r[i] == f(s[i])
  {
    seq(|s|, i requires 0 <= i < |s| => f(s[i]))
  }

  /** Non-increasing by `key`: what ORDER BY key DESC promises. */
  predicate SortedDesc<T>(s: seq<T>, key: T -> int) {
    forall i, j :: 0 <= i < j < |s| ==> key(s[i]) >= key(s[j])
  }

  /** Inserts `x` into a list sorted by descending key: after the elements
      whose key is larger, before the rest. */
  function InsertDesc<T>(x: T, s: seq<T>, key: T -> int): seq<T>
    decreases |s|
  {
    if |s| == 0 then [x]
    else if key(x) >= key(s[0]) then [x] + s
    else [s[0]] + InsertDesc(x, s[1..], key)
  }

  /** Dropping the head keeps a list sorted. */
  lemma {:induction false} SortedDescTail<T>(s: seq<T>, key: T -> int)
    requires |s| > 0 && SortedDesc(s, key)
    ensures SortedDesc(s[1..], key)
  {
    var rest := s[1..];
    forall i, j | 0 <= i < j < |rest| ensures key(rest[i]) >= key(rest[j]) {
      assert rest[i] == s[i + 1] && rest[j] == s[j + 1];
    }
  }

  /** A sorted list stays sorted under a head whose key is at least that
      of the list's own head. */
  lemma {:induction false} SortedDescCons<T>(h: T, s: seq<T>, key: T -> int)
    requires SortedDesc(s, key)
    requires |s| > 0 ==> key(h) >= key(s[0])
    ensures SortedDesc([h] + s, key)
  {
    var r := [h] + s;
    forall i, j | 0 <= i < j < |r| ensures key(r[i]) >= key(r[j]) {
      assert r[j] == s[j - 1];
      if i == 0 {
        assert key(s[0]) >= key(s[j - 1]) || j - 1 == 0;
      } else {
        assert r[i] == s[i - 1];
      }
    }
  }

  /** Inserting adds exactly `x`, and puts at the head either `x` or the
      old head. */
  lemma {:induction false} InsertDescElements<T>(x: T, s: seq<T>, key: T -> int)
    ensures multiset(InsertDesc(x, s, key)) == multiset(s) + multiset{x}
    ensures |InsertDesc(x, s, key)| == |s| + 1
    ensures InsertDesc(x, s, key)[0] == x || (|s| > 0 && InsertDesc(x, s, key)[0] == s[0])
    decreases |s|
  {
    if |s| > 0 && key(x) < key(s[0]) {
      var rest := s[1..];
      assert s == [s[0]] + rest;
      InsertDescElements(x, rest, key);
      assert multiset(InsertDesc(x, s, key)) == multiset{s[0]} + multiset(InsertDesc(x, rest, key));
    }
  }

  /** Inserting into a sorted list keeps it sorted. */
  lemma {:induction false} InsertDescSorted<T>(x: T, s: seq<T>, key: T -> int)
    requires SortedDesc(s, key)
    ensures SortedDesc(InsertDesc(x, s, key), key)
    decreases |s|
  {
    if |s| == 0 {
    } else if key(x) < key(s[0]) {
      var rest := s[1..];
      SortedDescTail(s, key);
      InsertDescSorted(x, rest, key);
      InsertDescElements(x, rest, key);
      var tail := InsertDesc(x, rest, key);
      assert tail[0] == x || tail[0] == rest[0];
      SortedDescCons(s[0], tail, key);
    } else {
      SortedDescCons(x, s, key);
    }
  }

  /** Stable insertion sort by descending key. */
  function SortDesc<T>(s: seq<T>, key: T -> int): seq<T>
    decreases |s|
  {
    if |s| == 0 then [] else InsertDesc(s[0], SortDesc(s[1..], key), key)
  }

  /** The sort yields a sorted permutation of its input. */
  lemma {:induction false} SortDescSpec<T>(s: seq<T>, key: T -> int)
    ensures SortedDesc(SortDesc(s, key), key)
    ensures multiset(SortDesc(s, key)) == multiset(s)
    decreases |s|
  {
    if |s| > 0 {
      var sorted := SortDesc(s[1..], key);
      SortDescSpec(s[1..], key);
      InsertDescSorted(s[0], sorted, key);
      InsertDescElements(s[0], sorted, key);
      assert s == [s[0]] + s[1..];
    }
  }

  /** SQL LIMIT n: the first min(n, |s|) elements. */
  function Take<T>(s: seq<T>, n: nat): (r: seq<T>)
    ensures |r| == if |s| < n then |s| else n
    ensures r <= s
  {
    if |s| < n then s else s[..n]
  }
}

=== FILE: dictionary.dfy ===
/** The dictionary lookup as the repository sees it: the response shapes
    of the dictionary web service and the reduction of one lookup to the
    enrichment of a new word. The network call itself is an oracle: its
    outcome is an input. */
module Dictionary {
  import opened Collections

  /** One sense of a word. */
  datatype Definition = Definition(definition: string, example: Option<string>)

  /** The senses of a word under one part of speech. */
  datatype Meaning = Meaning(partOfSpeech: Option<string>, definitions: Option<seq<Definition>>)

  /** One entry of the response list. */
  datatype DictionaryResponse = DictionaryResponse(
    word: string,
    phonetic: Option<string>,
    meanings: Option<seq<Meaning>>)

  /** What one call to the service produced: an HTTP response (its status
      code and its parsed body, absent when there is none) or an exception
      raised by the call. */
  datatype LookupOutcome =
    | Responded(code: int, body: Option<seq<DictionaryResponse>>)
    | Threw

  /** Retrofit's Response.isSuccessful: a status code in [200, 300). */
  predicate IsSuccessful(code: int) {
    200 <= code < 300
  }

  /** The enrichment kept for a new word. */
  datatype WordDefinition = WordDefinition(
    definition: Option<string>,
    pronunciation: Option<string>,
    partOfSpeech: Option<string>)

  /** The reduction in fetchWordDefinition: on a successful, non-empty
      response, the first entry's phonetic, and the part of speech of its
      first meaning and the text of that meaning's first definition; null
      on every failure. */
  function Reduce(outcome: LookupOutcome): (r: Option<WordDefinition>)
    ensures r.Some? <==>
      outcome.Responded? && IsSuccessful(outcome.code) && outcome.body.Some? && |outcome.body.value| > 0
    ensures r.Some? ==>
      var entry := outcome.body.value[0];
      && r.value.pronunciation == entry.phonetic
      && (if entry.meanings.Some? && |entry.meanings.value| > 0 then
            var meaning := entry.meanings.value[0];
            && r.value.partOfSpeech == meaning.partOfSpeech
            && r.value.definition ==
                 (if meaning.definitions.Some? && |meaning.definitions.value| > 0
                  then Some(meaning.definitions.value[0].definition) else None)
          else r.value.partOfSpeech.None? && r.value.definition.None?)
  {
    match outcome
    case Threw => None
    case Responded(code, body) =>
      if IsSuccessful(code) && body.Some? then
        match FirstOrNone(body.value)
        case None => None
        case Some(entry) =>
          var meaning := match entry.meanings
            case None => None
            case Some(ms) => FirstOrNone(ms);
          var definition := match meaning
            case None => None
            case Some(m) =>
              match m.definitions
              case None => None
              case Some(ds) => FirstOrNone(ds);
          Some(WordDefinition(
            match definition case None => None case Some(d) => Some(d.definition),
            entry.phonetic,
            match meaning case None => None case Some(m) => m.partOfSpeech))
      else None
  }
}

=== FILE: ingestion.dfy ===
/** What addWordFromClipboard does to the table, as functions of the table.
    Each token of the copied text is looked up under its lower-case form:
    a stored row has its usage count raised by one and the dictionary is
    not consulted; otherwise the dictionary is asked and a new row is
    inserted, enriched with what the lookup reduced to. A store exception
    while handling one token is caught and skips that token only.

    The outside world is an `Oracle`: what the dictionary service answers
    for each lookup key, and the positions of the tokens whose store calls
    throw. One copy event is handled at a time and carries one clock
    reading. */
module Ingestion {
  import opened Collections
  import opened Text
  import opened WordEntity
  import opened Dao
  import opened Dictionary
  import opened Tokenizer

  /** One clipboard change: the copied text, the app it came from (when it
      could be told) and the clock reading for new rows. */
  datatype ClipEvent = ClipEvent(copiedText: string, source: Option<string>, now: int)

  /** `lookup(k)` is what the dictionary call for key `k` produced;
      `storeFaults` holds the positions of the tokens whose store calls
      throw. */
  datatype Oracle = Oracle(lookup: string -> LookupOutcome, storeFaults: set<nat>)

  /** The row built for a token seen for the first time. */
  function NewEntry(token: string, def: Option<WordDefinition>, ev: ClipEvent): Word {
    var base := NewWord(Lower(token), ev.now);
    match def
    case None =>
      base.(source := ev.source, copiedText := Some(ev.copiedText))
    case Some(d) =>
      base.(definition := d.definition, pronunciation := d.pronunciation,
            partOfSpeech := d.partOfSpeech, source := ev.source,
            copiedText := Some(ev.copiedText))
  }

  /** One iteration of the loop: the body of the try block, or nothing when
      the store throws. */
  function IngestToken(t: Table, token: string, faulted: bool, ev: ClipEvent,
                       lookup: string -> LookupOutcome): Table
  {
    if faulted then t
    else match GetWord(t, Lower(token))
      case Some(e) => Incremented(t, e.id)
      case None => Inserted(t, NewEntry(token, Reduce(lookup(Lower(token))), ev)).0
  }

  /** The table after the first `n` tokens. */
  function IngestPrefix(t: Table, tokens: seq<string>, n: nat, ev: ClipEvent, oracle: Oracle): Table
    requires n <= |tokens|
  {
    if n == 0 then t
    else IngestToken(IngestPrefix(t, tokens, n - 1, ev, oracle), tokens[n - 1],
                     n - 1 in oracle.storeFaults, ev, oracle.lookup)
  }

  /** The whole call: every token of the copied text, in order. */
  function Ingest(t: Table, ev: ClipEvent, oracle: Oracle): Table {
    var tokens := ExtractWords(ev.copiedText);
    IngestPrefix(t, tokens, |tokens|, ev, oracle)
  }

  // ---------------------------------------------------------------------
  // One token

  /** A token whose lower-case form is stored raises that row's usage count
      by exactly one; every other field and every other row stays as it
      was, and the outcome does not depend on the dictionary at all. */
  lemma {:induction false} ExistingTokenIncrements(
    t: Table, token: string, ev: ClipEvent,
    lookup: string -> LookupOutcome, otherLookup: string -> LookupOutcome, p: nat)
    requires ValidTable(t)
    requires p < |t.rows| && GetWord(t, Lower(token)) == Some(t.rows[p])
    ensures IngestToken(t, token, false, ev, lookup) == IngestToken(t, token, false, ev, otherLookup)
    ensures var t' := IngestToken(t, token, false, ev, lookup);
      && t'.nextId == t.nextId
      && |t'.rows| == |t.rows|
      && t'.rows[p] == t.rows[p].(usageCount := t.rows[p].usageCount + 1)
      && t'.rows[p].word == Lower(token)
      && forall i :: 0 <= i < |t.rows| && i != p ==> t'.rows[i] == t.rows[i]
  {
    IncrementedSpec(t, t.rows[p].id);
  }

  /** A token whose lower-case form is not stored adds exactly one row at
      the end: a fresh id, the lower-cased token, a usage count of one, not
      a favourite, the event's source, text and time, and the enrichment
      the lookup reduced to. */
  lemma {:induction false} AbsentTokenInserts(
    t: Table, token: string, ev: ClipEvent, lookup: string -> LookupOutcome)
    requires ValidTable(t)
    requires GetWord(t, Lower(token)).None?
    ensures var t' := IngestToken(t, token, false, ev, lookup);
      var def := Reduce(lookup(Lower(token)));
      && |t'.rows| == |t.rows| + 1
      && t'.rows[..|t.rows|] == t.rows
      && t'.nextId == t.nextId + 1
      && var w := t'.rows[|t.rows|];
      && w.id == t.nextId
      && (forall i :: 0 <= i < |t.rows| ==> t.rows[i].id != w.id)
      && w.word == Lower(token)
      && w.usageCount == 1 && !w.isFavorite
      && w.source == ev.source && w.copiedText == Some(ev.copiedText)
      && w.dateAdded == ev.now
      && (def.None? ==> w.definition.None? && w.pronunciation.None? && w.partOfSpeech.None?)
      && (def.Some? ==> w.definition == def.value.definition
                        && w.pronunciation == def.value.pronunciation
                        && w.partOfSpeech == def.value.partOfSpeech)
  {
    var def := Reduce(lookup(Lower(token)));
    var entry := NewEntry(token, def, ev);
    InsertedSpec(t, entry);
    var t' := Inserted(t, entry).0;
    assert t'.rows == t.rows + [entry.(id := t.nextId)];
    assert t'.rows[..|t.rows|] == t.rows;
  }

  /** A failed lookup (an exception, an unsuccessful status, no body or an
      empty list) does not stop the insert: the new row has no definition,
      pronunciation or part of speech. */
  lemma {:induction false} FailedLookupStillInserts(
    t: Table, token: string, ev: ClipEvent, lookup: string -> LookupOutcome)
    requires ValidTable(t)
    requires GetWord(t, Lower(token)).None?
    requires var o := lookup(Lower(token));
      o.Threw? || !IsSuccessful(o.code) || o.body.None? || |o.body.value| == 0
    ensures var t' := IngestToken(t, token, false, ev, lookup);
      && |t'.rows| == |t.rows| + 1
      && t'.rows[|t.rows|].word == Lower(token)
      && t'.rows[|t.rows|].definition.None?
      && t'.rows[|t.rows|].pronunciation.None?
      && t'.rows[|t.rows|].partOfSpeech.None?
  {
    AbsentTokenInserts(t, token, ev, lookup);
  }

  /** One token keeps the primary key and the counter, never shrinks the
      table and keeps words unique. */
  lemma {:induction false} IngestTokenKeepsInvariants(
    t: Table, token: string, faulted: bool, ev: ClipEvent, lookup: string -> LookupOutcome)
    requires ValidTable(t)
    ensures var t' := IngestToken(t, token, faulted, ev, lookup);
      && ValidTable(t')
      && |t'.rows| >= |t.rows|
      && (UniqueWords(t.rows) ==> UniqueWords(t'.rows))
  {
    if !faulted {
      match GetWord(t, Lower(token))
      case Some(e) =>
        IncrementedSpec(t, e.id);
        var t' := Incremented(t, e.id);
        assert forall i :: 0 <= i < |t.rows| ==> t'.rows[i].word == t.rows[i].word;
      case None =>
        AbsentTokenInserts(t, token, ev, lookup);
        var t' := IngestToken(t, token, faulted, ev, lookup);
        assert t'.rows[|t.rows|].word == Lower(token);
    }
  }

  /** One token keeps words unique. */
  lemma {:induction false} IngestTokenKeepsUniqueWords(
    t: Table, token: string, faulted: bool, ev: ClipEvent, lookup: string -> LookupOutcome)
    requires ValidTable(t) && UniqueWords(t.rows)
    ensures UniqueWords(IngestToken(t, token, faulted, ev, lookup).rows)
  {
    IngestTokenKeepsInvariants(t, token, faulted, ev, lookup);
  }

  // ---------------------------------------------------------------------
  // A whole event

  /** Handled one token at a time, the event keeps the primary key and
      the counter. */
  lemma {:induction false} IngestPrefixValid(
    t: Table, tokens: seq<string>, n: nat, ev: ClipEvent, oracle: Oracle)
    requires n <= |tokens|
    requires ValidTable(t)
    ensures ValidTable(IngestPrefix(t, tokens, n, ev, oracle))
    decreases n
  {
    if n > 0 {
      IngestPrefixValid(t, tokens, n - 1, ev, oracle);
      IngestTokenKeepsInvariants(IngestPrefix(t, tokens, n - 1, ev, oracle), tokens[n - 1],
                                 n - 1 in oracle.storeFaults, ev, oracle.lookup);
    }
  }

  /** Handled one event at a time, the lookup-before-insert keeps `word`
      unique although the schema has no unique index on it. */
  lemma {:induction false} IngestPrefixUniqueWords(
    t: Table, tokens: seq<string>, n: nat, ev: ClipEvent, oracle: Oracle)
    requires n <= |tokens|
    requires ValidTable(t) && UniqueWords(t.rows)
    ensures UniqueWords(IngestPrefix(t, tokens, n, ev, oracle).rows)
    decreases n
  {
    if n > 0 {
      var before := IngestPrefix(t, tokens, n - 1, ev, oracle);
      var faulted := n - 1 in oracle.storeFaults;
      IngestPrefixUniqueWords(t, tokens, n - 1, ev, oracle);
      IngestPrefixValid(t, tokens, n - 1, ev, oracle);
      IngestTokenKeepsUniqueWords(before, tokens[n - 1], faulted, ev, oracle.lookup);
      assert IngestPrefix(t, tokens, n, ev, oracle) == IngestToken(before, tokens[n - 1], faulted, ev, oracle.lookup);
    }
  }

  /** The whole call keeps the table invariant and unique words. */
  lemma {:induction false} IngestKeepsUniqueWords(t: Table, ev: ClipEvent, oracle: Oracle)
    requires ValidTable(t) && UniqueWords(t.rows)
    ensures ValidTable(Ingest(t, ev, oracle)) && UniqueWords(Ingest(t, ev, oracle).rows)
  {
    var tokens := ExtractWords(ev.copiedText);
    IngestPrefixValid(t, tokens, |tokens|, ev, oracle);
    IngestPrefixUniqueWords(t, tokens, |tokens|, ev, oracle);
  }

  // ---------------------------------------------------------------------
  // Usage counts

  /** Sum of the usage counts of the rows whose word is `k`. */
  function UsageOf(rows: seq<Word>, k: string): int
    decreases |rows|
  {
    if |rows| == 0 then 0
    else (if rows[0].word == k then rows[0].usageCount else 0) + UsageOf(rows[1..], k)
  }

  /** Sum of all usage counts. */
  function TotalUsage(rows: seq<Word>): int
    decreases |rows|
  {
    if |rows| == 0 then 0 else rows[0].usageCount + TotalUsage(rows[1..])
  }

  /** How many of the first `n` tokens were handled without a store fault
      and fold to `k`. */
  function HitsOf(tokens: seq<string>, n: nat, faults: set<nat>, k: string): nat
    requires n <= |tokens|
  {
    if n == 0 then 0
    else HitsOf(tokens, n - 1, faults, k)
         + (if n - 1 !in faults && Lower(tokens[n - 1]) == k then 1 else 0)
  }

  /** How many of the first `n` tokens were handled without a store fault. */
  function Handled(n: nat, faults: set<nat>): nat {
    if n == 0 then 0 else Handled(n - 1, faults) + (if n - 1 in faults then 0 else 1)
  }

  lemma {:induction false} UsageAppend(rows: seq<Word>, w: Word, k: string)
    ensures UsageOf(rows + [w], k) == UsageOf(rows, k) + (if w.word == k then w.usageCount else 0)
    ensures TotalUsage(rows + [w]) == TotalUsage(rows) + w.usageCount
    decreases |rows|
  {
    if |rows| > 0 {
      assert (rows + [w])[1..] == rows[1..] + [w];
      UsageAppend(rows[1..], w, k);
    } else {
      assert rows + [w] == [w];
    }
  }

  lemma {:induction false} UsageUpdate(rows: seq<Word>, p: nat, w: Word, k: string)
    requires p < |rows|
    ensures UsageOf(rows[p := w], k) ==
      UsageOf(rows, k) - (if rows[p].word == k then rows[p].usageCount else 0)
                       + (if w.word == k then w.usageCount else 0)
    ensures TotalUsage(rows[p := w]) == TotalUsage(rows) - rows[p].usageCount + w.usageCount
    decreases |rows|
  {
    if p > 0 {
      assert rows[p := w][1..] == rows[1..][p - 1 := w];
      UsageUpdate(rows[1..], p - 1, w, k);
    } else {
      assert rows[p := w][1..] == rows[1..];
    }
  }

  /** The row at `p` is the one an increment of its id raises. */
  lemma {:induction false} IncrementedAt(t: Table, p: nat)
    requires ValidTable(t) && p < |t.rows|
    ensures Incremented(t, t.rows[p].id).rows == t.rows[p := t.rows[p].(usageCount := t.rows[p].usageCount + 1)]
  {
    var q := FindId(t.rows, t.rows[p].id);
    assert q == Some(p) by {
      assert q.Some?;
      assert t.rows[q.value].id == t.rows[p].id;
    }
  }

  /** One handled token adds exactly one use, to the row of its key. */
  lemma {:induction false} IngestTokenUsage(
    t: Table, token: string, faulted: bool, ev: ClipEvent, lookup: string -> LookupOutcome, k: string)
    requires ValidTable(t)
    ensures var t' := IngestToken(t, token, faulted, ev, lookup);
      && UsageOf(t'.rows, k) == UsageOf(t.rows, k) + (if !faulted && Lower(token) == k then 1 else 0)
      && TotalUsage(t'.rows) == TotalUsage(t.rows) + (if faulted then 0 else 1)
  {
    if !faulted {
      var found := FindWord(t.rows, Lower(token));
      if found.Some? {
        var p := found.value;
        IncrementedAt(t, p);
        UsageUpdate(t.rows, p, t.rows[p].(usageCount := t.rows[p].usageCount + 1), k);
      } else {
        AbsentTokenInserts(t, token, ev, lookup);
        var t' := IngestToken(t, token, faulted, ev, lookup);
        assert t'.rows == t.rows + [t'.rows[|t.rows|]];
        UsageAppend(t.rows, t'.rows[|t.rows|], k);
      }
    }
  }

  /** Over a whole event, the row of every key gains exactly one use per
      handled token that folds to it (so a later case variant raises the
      row an earlier one created), and the total usage grows by exactly the
      number of handled tokens. */
  lemma {:induction false} IngestPrefixUsage(
    t: Table, tokens: seq<string>, n: nat, ev: ClipEvent, oracle: Oracle, k: string)
    requires n <= |tokens|
    requires ValidTable(t)
    ensures UsageOf(IngestPrefix(t, tokens, n, ev, oracle).rows, k)
            == UsageOf(t.rows, k) + HitsOf(tokens, n, oracle.storeFaults, k)
    ensures TotalUsage(IngestPrefix(t, tokens, n, ev, oracle).rows)
            == TotalUsage(t.rows) + Handled(n, oracle.storeFaults)
    decreases n
  {
    if n > 0 {
      IngestPrefixUsage(t, tokens, n - 1, ev, oracle, k);
      var before := IngestPrefix(t, tokens, n - 1, ev, oracle);
      IngestPrefixValid(t, tokens, n - 1, ev, oracle);
      IngestTokenUsage(before, tokens[n - 1], n - 1 in oracle.storeFaults, ev, oracle.lookup, k);
    }
  }

  /** With no store faults every token counts. */
  lemma {:induction false} HandledWithoutFaults(n: nat)
    ensures Handled(n, {}) == n
  {
    if n > 0 {
      HandledWithoutFaults(n - 1);
    }
  }

  /** A clipboard event whose store calls all succeed: the words stay
      distinct, every extracted token has its row, and the total usage
      grows by exactly the number of tokens. */
  lemma {:induction false} FaultFreeEvent(t: Table, ev: ClipEvent, oracle: Oracle)
    requires ValidTable(t) && UniqueWords(t.rows) && oracle.storeFaults == {}
    ensures var t' := Ingest(t, ev, oracle);
      && UniqueWords(t'.rows)
      && (forall token :: token in ExtractWords(ev.copiedText) ==> Stored(t'.rows, Lower(token)))
      && TotalUsage(t'.rows) == TotalUsage(t.rows) + |ExtractWords(ev.copiedText)|
  {
    var tokens := ExtractWords(ev.copiedText);
    var n := |tokens|;
    IngestKeepsUniqueWords(t, ev, oracle);
    IngestPrefixUsage(t, tokens, n, ev, oracle, []);
    HandledWithoutFaults(n);
    forall token | token in tokens
      ensures Stored(Ingest(t, ev, oracle).rows, Lower(token))
    {
      var j :| 0 <= j < n && tokens[j] == token;
      HandledTokensAreStored(t, tokens, n, ev, oracle, j);
    }
  }

  /** Some row holds the word `k`. */
  predicate Stored(rows: seq<Word>, k: string) {
    exists i :: 0 <= i < |rows| && rows[i].word == k
  }

  /** One token removes no row and renames none, and a handled token's
      key is stored afterwards. */
  lemma {:induction false} IngestTokenKeepsWords(
    t: Table, token: string, faulted: bool, ev: ClipEvent, lookup: string -> LookupOutcome)
    ensures var t' := IngestToken(t, token, faulted, ev, lookup);
      && |t'.rows| >= |t.rows|
      && (forall i :: 0 <= i < |t.rows| ==> t'.rows[i].word == t.rows[i].word)
      && (!faulted ==> Stored(t'.rows, Lower(token)))
  {
    if !faulted {
      var t' := IngestToken(t, token, faulted, ev, lookup);
      match GetWord(t, Lower(token))
      case Some(e) =>
        var p :| 0 <= p < |t.rows| && t.rows[p] == e;
        assert t'.rows[p].word == Lower(token);
      case None =>
        assert t'.rows[|t.rows|].word == Lower(token);
    }
  }

  /** A key that is stored stays stored when no row goes and no word
      changes. */
  lemma {:induction false} StoredStaysStored(rows: seq<Word>, rows': seq<Word>, k: string)
    requires Stored(rows, k)
    requires |rows'| >= |rows|
    requires forall i :: 0 <= i < |rows| ==> rows'[i].word == rows[i].word
    ensures Stored(rows', k)
  {
    var i :| 0 <= i < |rows| && rows[i].word == k;
    assert rows'[i].word == k;
  }

  /** A stored key stays stored through one token, and a handled token's
      own key is stored after it. */
  lemma {:induction false} IngestTokenStores(
    t: Table, token: string, faulted: bool, ev: ClipEvent, lookup: string -> LookupOutcome, k: string)
    requires Stored(t.rows, k) || (!faulted && Lower(token) == k)
    ensures Stored(IngestToken(t, token, faulted, ev, lookup).rows, k)
  {
    IngestTokenKeepsWords(t, token, faulted, ev, lookup);
    if Stored(t.rows, k) {
      StoredStaysStored(t.rows, IngestToken(t, token, faulted, ev, lookup).rows, k);
    }
  }

  /** After an event some row holds the key of every handled token. */
  lemma {:induction false} HandledTokensAreStored(
    t: Table, tokens: seq<string>, n: nat, ev: ClipEvent, oracle: Oracle, j: nat)
    requires j < n <= |tokens| && j !in oracle.storeFaults
    ensures Stored(IngestPrefix(t, tokens, n, ev, oracle).rows, Lower(tokens[j]))
    decreases n
  {
    if j < n - 1 {
      HandledTokensAreStored(t, tokens, n - 1, ev, oracle, j);
    }
    IngestTokenStores(IngestPrefix(t, tokens, n - 1, ev, oracle), tokens[n - 1],
                      n - 1 in oracle.storeFaults, ev, oracle.lookup, Lower(tokens[j]));
  }

  /** A key hit by a handled token is counted at least once. */
  lemma {:induction false} HitsAtLeastOne(tokens: seq<string>, n: nat, faults: set<nat>, i: nat)
    requires i < n <= |tokens| && i !in faults
    ensures HitsOf(tokens, n, faults, Lower(tokens[i])) >= 1
    decreases n
  {
    if i < n - 1 {
      HitsAtLeastOne(tokens, n - 1, faults, i);
    }
  }

  /** Two spellings of one word in the same text, say "The" and then "the",
      end up in one row used at least twice more than before: the later
      spelling raises the row the earlier one created or found. */
  lemma {:induction false} CaseVariantsShareOneRow(
    t: Table, tokens: seq<string>, ev: ClipEvent, oracle: Oracle, i: nat, j: nat)
    requires ValidTable(t) && UniqueWords(t.rows)
    requires i < j < |tokens| && i !in oracle.storeFaults && j !in oracle.storeFaults
    requires Lower(tokens[i]) == Lower(tokens[j])
    ensures var t' := IngestPrefix(t, tokens, |tokens|, ev, oracle);
      && UniqueWords(t'.rows)
      && Stored(t'.rows, Lower(tokens[j]))
      && UsageOf(t'.rows, Lower(tokens[j])) >= UsageOf(t.rows, Lower(tokens[j])) + 2
  {
    var n := |tokens|;
    var k := Lower(tokens[j]);
    IngestPrefixUniqueWords(t, tokens, n, ev, oracle);
    HandledTokensAreStored(t, tokens, n, ev, oracle, j);
    IngestPrefixUsage(t, tokens, n, ev, oracle, k);
    HitsAtLeastOne(tokens, j, oracle.storeFaults, i);
    HitsFrom(tokens, j, n, oracle.storeFaults, k);
  }

  /** Hits only accumulate, and the token at `m` adds its own. */
  lemma {:induction false} HitsFrom(tokens: seq<string>, m: nat, n: nat, faults: set<nat>, k: string)
    requires m < n <= |tokens|
    ensures HitsOf(tokens, n, faults, k) >= HitsOf(tokens, m, faults, k)
      + (if m !in faults && Lower(tokens[m]) == k then 1 else 0)
    decreases n
  {
    if m < n - 1 {
      HitsFrom(tokens, m, n - 1, faults, k);
    }
  }
}

=== FILE: text.dfy ===
/** Character classes and string operations the app relies on: the token
    alphabet of the word extractor, Kotlin's notion of whitespace and
    blankness, `trim`, `lowercase` and case-insensitive `contains`.
    Case mapping is restricted to ASCII letters. */
module Text {

  predicate IsAsciiLetter(c: char) {
    ('a' <= c <= 'z') || ('A' <= c <= 'Z')
  }

  /** The characters of the class [a-zA-Z'] the extractor keeps. */
  predicate IsWordChar(c: char) {
    IsAsciiLetter(c) || c == '\''
  }

  predicate AllWordChars(s: string) {
    forall i :: 0 <= i < |s| ==> IsWordChar(s[i])
  }

  /** Kotlin's Char.isWhitespace: Java's isWhitespace or isSpaceChar. */
  predicate IsWhitespace(c: char) {
    || ('\t' <= c <= '\r') || ('\U{1C}' <= c <= '\U{1F}') || c == ' '
    || c == '\U{A0}' || c == '\U{1680}' || ('\U{2000}' <= c <= '\U{200A}')
    || c == '\U{2028}' || c == '\U{2029}' || c == '\U{202F}' || c == '\U{205F}'
    || c == '\U{3000}'
  }

  /** No character of the token alphabet is whitespace. */
  lemma {:induction false} WordCharIsNotWhitespace(c: char)
    requires IsWordChar(c)
    ensures !IsWhitespace(c)
  {
  }

  /** Kotlin's isBlank: empty or whitespace only. */
  predicate IsBlank(s: string) {
    forall i :: 0 <= i < |s| ==> IsWhitespace(s[i])
  }

  function TrimStart(s: string): (r: string)
    ensures |r| <= |s| && r == s[|s| - |r|..]
    ensures |r| > 0 ==> !IsWhitespace(r[0])
    decreases |s|
  {
    if |s| > 0 && IsWhitespace(s[0]) then TrimStart(s[1..]) else s
  }

  function TrimEnd(s: string): (r: string)
    ensures |r| <= |s| && r == s[..|r|]
    ensures |r| > 0 ==> !IsWhitespace(r[|r| - 1])
    decreases |s|
  {
    if |s| > 0 && IsWhitespace(s[|s| - 1]) then TrimEnd(s[..|s| - 1]) else s
  }

  /** Kotlin's String.trim(). */
  function Trim(s: string): (r: string)
  {
    TrimEnd(TrimStart(s))
  }

  /** Trimming leaves a string without leading or trailing whitespace alone,
      and in particular every string of word characters. */
  lemma {:induction false} TrimWordIsIdentity(s: string)
    requires AllWordChars(s)
    ensures Trim(s) == s
  {
    if |s| > 0 {
      WordCharIsNotWhitespace(s[0]);
      WordCharIsNotWhitespace(s[|s| - 1]);
    }
  }

  /** ASCII case folding of one character. */
  function LowerChar(c: char): (d: char)
    ensures IsAsciiLetter(c) ==> 'a' <= d <= 'z'
    ensures !('A' <= c <= 'Z') ==> d == c
  {
    if 'A' <= c <= 'Z' then (c as int - 'A' as int + 'a' as int) as char else c
  }

  /** Kotlin's lowercase(), exact on ASCII text. */
  function Lower(s: string): (r: string)
    ensures |r| == |s|
    ensures forall i :: 0 <= i < |s| ==> r[i] == LowerChar(s[i])
    decreases |s|
  {
    if |s| == 0 then [] else [LowerChar(s[0])] + Lower(s[1..])
  }

  /** Folding twice is folding once: the stored, lower-cased word is its
      own lookup key. */
  lemma {:induction false} LowerIdempotent(s: string)
    ensures Lower(Lower(s)) == Lower(s)
  {
  }

  /** Case-insensitive equality of two strings (ASCII folding). */
  predicate EqIgnoreCase(a: string, b: string) {
    |a| == |b| && forall i :: 0 <= i < |a| ==> LowerChar(a[i]) == LowerChar(b[i])
  }

  /** Kotlin's `s.contains(q, ignoreCase = true)`: some window of `s` equals
      `q` up to case. */
  predicate ContainsIgnoreCase(s: string, q: string) {
    exists i :: 0 <= i <= |s| - |q| && MatchesAt(s, q, i)
  }

  /** The window of `s` starting at `i` equals `q` up to case. */
  predicate MatchesAt(s: string, q: string, i: int) {
    0 <= i && i + |q| <= |s| && EqIgnoreCase(s[i..i + |q|], q)
  }
}

=== FILE: tokenizer.dfy ===
/** extractWords: copied text to the ordered, duplicate-free list of
    candidate words. The text is split on every run of characters outside
    [a-zA-Z'], pieces that are blank or a single character are dropped,
    each piece is trimmed and duplicates are removed, keeping the first
    occurrence. Case is preserved: "The" and "the" are different tokens. */
module Tokenizer {
  import opened Collections
  import opened Text

  /** The longest prefix of `s` made of word characters. */
  function LeadingRun(s: string): (r: string)
    ensures |r| <= |s| && r == s[..|r|]
    ensures AllWordChars(r)
    ensures |r| < |s| ==> !IsWordChar(s[|r|])
    decreases |s|
  {
    if |s| > 0 && IsWordChar(s[0]) then [s[0]] + LeadingRun(s[1..]) else []
  }

  /** `s` without its leading separator characters. */
  function DropSeparators(s: string): (r: string)
    ensures |r| <= |s| && r == s[|s| - |r|..]
    ensures forall i :: 0 <= i < |s| - |r| ==> !IsWordChar(s[i])
    ensures |s| > 0 && !IsWordChar(s[0]) ==> |r| < |s|
    ensures |r| > 0 ==> IsWordChar(r[0])
    decreases |s|
  {
    if |s| > 0 && !IsWordChar(s[0]) then
      var r := DropSeparators(s[1..]);
      assert s[1..][|s| - 1 - |r|..] == s[|s| - |r|..];
      assert forall i :: 1 <= i < |s| ==> s[i] == s[1..][i - 1];
      r
    else s
  }

  /** Kotlin's `split(Regex("[^a-zA-Z']+"))`: the stretches between
      separator runs, including the empty first and last pieces a leading
      or trailing run leaves. */
  function Split(s: string): (pieces: seq<string>)
    ensures |pieces| > 0
    ensures forall i :: 0 <= i < |pieces| ==> AllWordChars(pieces[i])
    decreases |s|
  {
    var w := LeadingRun(s);
    if |w| == |s| then [w] else [w] + Split(DropSeparators(s[|w|..]))
  }

  /** The pieces laid end to end. */
  function Concat(pieces: seq<string>): string {
    if |pieces| == 0 then [] else pieces[0] + Concat(pieces[1..])
  }

  /** Dropping leading separators does not change the word characters. */
  lemma {:induction false} SeparatorsFilterOut(rest: string)
    ensures Filter(rest, IsWordChar) == Filter(DropSeparators(rest), IsWordChar)
    decreases |rest|
  {
    if |rest| > 0 && !IsWordChar(rest[0]) {
      SeparatorsFilterOut(rest[1..]);
    }
  }

  /** The leading run of word characters survives the filter whole. */
  lemma {:induction false} RunFiltersThrough(s: string)
    ensures Filter(s, IsWordChar) == LeadingRun(s) + Filter(s[|LeadingRun(s)|..], IsWordChar)
  {
    var w := LeadingRun(s);
    assert s == w + s[|w|..];
    FilterAll(w, IsWordChar);
    FilterAppend(w, s[|w|..], IsWordChar);
  }

  lemma {:induction false} ConcatCons(w: string, pieces: seq<string>)
    ensures Concat([w] + pieces) == w + Concat(pieces)
  {
    assert ([w] + pieces)[1..] == pieces;
  }

  /** Splitting loses exactly the separators: the pieces, laid end to end,
      are the word characters of the text in order. */
  lemma {:induction false} SplitLosesOnlySeparators(s: string)
    ensures Concat(Split(s)) == Filter(s, IsWordChar)
    decreases |s|
  {
    var w := LeadingRun(s);
    RunFiltersThrough(s);
    if |w| == |s| {
      assert s[|w|..] == [];
      ConcatCons(w, []);
    } else {
      var kept := DropSeparators(s[|w|..]);
      SeparatorsFilterOut(s[|w|..]);
      SplitLosesOnlySeparators(kept);
      ConcatCons(w, Split(kept));
    }
  }

  /** No letter or apostrophe anywhere in `s`. */
  predicate NoWordChars(s: string) {
    forall i :: 0 <= i < |s| ==> !IsWordChar(s[i])
  }

  /** The run of separator characters `DropSeparators` removes. */
  function SeparatorRun(s: string): (r: string)
    ensures NoWordChars(r)
    ensures |s| > 0 && !IsWordChar(s[0]) ==> |r| > 0
  {
    s[..|s| - |DropSeparators(s)|]
  }

  /** The text is its separator run followed by what is kept. */
  lemma {:induction false} SeparatorRunThenRest(s: string)
    ensures s == SeparatorRun(s) + DropSeparators(s)
  {
    var kept := DropSeparators(s);
    assert s == s[..|s| - |kept|] + s[|s| - |kept|..];
  }

  /** The separator runs of `s` in order: what `Split` cuts out between
      each two of its pieces. */
  function SeparatorRuns(s: string): (seps: seq<string>)
    ensures |seps| == |Split(s)| - 1
    decreases |s|
  {
    var w := LeadingRun(s);
    if |w| == |s| then [] else [SeparatorRun(s[|w|..])] + SeparatorRuns(DropSeparators(s[|w|..]))
  }

  /** Pieces laid end to end with a separator between each two. */
  function Interleave(pieces: seq<string>, seps: seq<string>): string
    requires |pieces| > 0 && |seps| == |pieces| - 1
    decreases |pieces|
  {
    if |pieces| == 1 then pieces[0]
    else pieces[0] + seps[0] + Interleave(pieces[1..], seps[1..])
  }

  lemma {:induction false} TakeDrop(s: string, k: nat)
    requires k <= |s|
    ensures s == s[..k] + s[k..] && s == s[..|s|]
  {
  }

  lemma {:induction false} AppendAssoc(a: string, b: string, c: string)
    ensures a + (b + c) == a + b + c
  {
    assert forall i :: 0 <= i < |a| + |b| + |c| ==> (a + (b + c))[i] == (a + b + c)[i];
  }

  /** One cut: the leading run, the separators after it, and the rest of
      the text, which `Split` and `SeparatorRuns` go on with. */
  lemma {:induction false} FirstCut(s: string)
    requires |LeadingRun(s)| < |s|
    ensures var rest := s[|LeadingRun(s)|..];
      s == LeadingRun(s) + SeparatorRun(rest) + DropSeparators(rest)
  {
    var w := LeadingRun(s);
    var rest := s[|w|..];
    SeparatorRunThenRest(rest);
    TakeDrop(s, |w|);
    AppendAssoc(w, SeparatorRun(rest), DropSeparators(rest));
  }

  lemma {:induction false} SplitCut(s: string)
    requires |LeadingRun(s)| < |s|
    ensures var rest := s[|LeadingRun(s)|..];
      && Split(s) == [LeadingRun(s)] + Split(DropSeparators(rest))
      && SeparatorRuns(s) == [SeparatorRun(rest)] + SeparatorRuns(DropSeparators(rest))
  {
  }

  /** Laying out one more piece and separator in front of an interleaving. */
  lemma {:induction false} InterleaveCons(s: string, w: string, sep: string, kept: string,
                                          pieces: seq<string>, seps: seq<string>)
    requires |pieces| > 0 && |seps| == |pieces| - 1
    requires s == w + sep + kept && kept == Interleave(pieces, seps)
    ensures s == Interleave([w] + pieces, [sep] + seps)
  {
    assert ([w] + pieces)[1..] == pieces;
    assert ([sep] + seps)[1..] == seps;
  }

  /** Every separator run is non-empty and holds no word character. */
  lemma {:induction false} SeparatorRunsAreSeparators(s: string)
    ensures forall i :: 0 <= i < |SeparatorRuns(s)| ==>
      |SeparatorRuns(s)[i]| > 0 && NoWordChars(SeparatorRuns(s)[i])
    decreases |s|
  {
    var w := LeadingRun(s);
    if |w| < |s| {
      var rest := s[|w|..];
      var kept := DropSeparators(rest);
      SplitCut(s);
      SeparatorRunsAreSeparators(kept);
      var seps := SeparatorRuns(s);
      forall i | 0 <= i < |seps|
        ensures |seps[i]| > 0 && NoWordChars(seps[i])
      {
        if i > 0 {
          assert seps[i] == SeparatorRuns(kept)[i - 1];
        }
      }
    }
  }

  /** The pieces and the separator runs laid out in turn give back the text. */
  lemma {:induction false} SplitReassembles(s: string)
    ensures s == Interleave(Split(s), SeparatorRuns(s))
    decreases |s|
  {
    var w := LeadingRun(s);
    if |w| == |s| {
      TakeDrop(s, |w|);
    } else {
      var rest := s[|w|..];
      var kept := DropSeparators(rest);
      var sep := SeparatorRun(rest);
      FirstCut(s);
      SplitCut(s);
      SplitReassembles(kept);
      InterleaveCons(s, w, sep, kept, Split(kept), SeparatorRuns(kept));
    }
  }

  /** A text that is empty or starts with a word character and is cut at
      least once begins with a non-empty piece. */
  lemma {:induction false} FirstPieceAfterCut(s: string)
    requires |s| == 0 || IsWordChar(s[0])
    requires |Split(s)| > 1
    ensures |Split(s)[0]| > 0
  {
    assert |LeadingRun(s)| < |s|;
  }

  /** Only the first and the last piece can be empty: a leading or trailing
      separator run leaves one, but no piece sits between two runs. */
  lemma {:induction false} InteriorPiecesNonEmpty(s: string)
    ensures forall i :: 0 < i < |Split(s)| - 1 ==> |Split(s)[i]| > 0
    decreases |s|
  {
    var w := LeadingRun(s);
    if |w| < |s| {
      var kept := DropSeparators(s[|w|..]);
      SplitCut(s);
      InteriorPiecesNonEmpty(kept);
      if |Split(kept)| > 1 {
        FirstPieceAfterCut(kept);
      }
      InteriorCons(w, Split(kept));
    }
  }

  lemma {:induction false} InteriorCons(w: string, pieces: seq<string>)
    requires forall i :: 0 < i < |pieces| - 1 ==> |pieces[i]| > 0
    requires |pieces| > 1 ==> |pieces[0]| > 0
    ensures forall i :: 0 < i < |pieces| ==> |([w] + pieces)[i]| > 0
  {
    forall i | 0 < i < |pieces|
      ensures |([w] + pieces)[i]| > 0
    {
      assert ([w] + pieces)[i] == pieces[i - 1];
    }
  }

  /** Where the text is cut: it is its pieces with one non-empty run of
      characters outside [a-zA-Z'] between each two, and only the first and
      the last piece may be empty. As the pieces hold only letters and
      apostrophes, every run is maximal and no run is cut in two, so this
      is the one way to cut the text at the separator runs. */
  lemma {:induction false} SplitPoints(s: string)
    ensures |SeparatorRuns(s)| == |Split(s)| - 1
    ensures forall i :: 0 <= i < |SeparatorRuns(s)| ==>
      |SeparatorRuns(s)[i]| > 0 && NoWordChars(SeparatorRuns(s)[i])
    ensures s == Interleave(Split(s), SeparatorRuns(s))
    ensures forall i :: 0 < i < |Split(s)| - 1 ==> |Split(s)[i]| > 0
  {
    SeparatorRunsAreSeparators(s);
    SplitReassembles(s);
    InteriorPiecesNonEmpty(s);
  }

  /** The length filter: not blank and longer than one character. */
  predicate Qualifies(piece: string) {
    !IsBlank(piece) && |piece| > 1
  }

  /** extractWords. */
  function ExtractWords(text: string): seq<string> {
    Distinct(Map(Filter(Split(text), Qualifies), Trim))
  }

  /** For pieces of word characters, the length filter keeps exactly the
      pieces of two or more characters, and trimming changes none of them. */
  lemma {:induction false} CandidatesAreTrimmed(pieces: seq<string>)
    requires forall i :: 0 <= i < |pieces| ==> AllWordChars(pieces[i])
    ensures Map(Filter(pieces, Qualifies), Trim) == Filter(pieces, Qualifies)
    ensures forall x :: x in Filter(pieces, Qualifies) <==> x in pieces && |x| >= 2
    ensures forall x :: x in Filter(pieces, Qualifies) ==> AllWordChars(x)
  {
    var candidates := Filter(pieces, Qualifies);
    FilterSpec(pieces, Qualifies);
    forall x | x in pieces ensures AllWordChars(x) && (Qualifies(x) <==> |x| >= 2) {
      var i :| 0 <= i < |pieces| && pieces[i] == x;
      if |x| >= 2 {
        WordCharIsNotWhitespace(x[0]);
      }
    }
    forall i | 0 <= i < |candidates| ensures Trim(candidates[i]) == candidates[i] {
      assert candidates[i] in candidates;
      TrimWordIsIdentity(candidates[i]);
    }
  }

  /** Trimming is the identity on the pieces that pass the filter. */
  lemma {:induction false} ExtractWordsIsDistinctCandidates(text: string)
    ensures ExtractWords(text) == Distinct(Filter(Split(text), Qualifies))
  {
    CandidatesAreTrimmed(Split(text));
  }

  /** Every token has at least two characters, all letters or apostrophes,
      and the tokens are exactly the pieces of at least two characters. */
  lemma {:induction false} ExtractWordsTokens(text: string)
    ensures forall i :: 0 <= i < |ExtractWords(text)| ==>
      |ExtractWords(text)[i]| >= 2 && AllWordChars(ExtractWords(text)[i])
    ensures forall x :: x in ExtractWords(text) <==> x in Split(text) && |x| >= 2
  {
    var pieces := Split(text);
    var candidates := Filter(pieces, Qualifies);
    CandidatesAreTrimmed(pieces);
    ExtractWordsIsDistinctCandidates(text);
    var tokens := Distinct(candidates);
    DistinctSpec(candidates);
    forall i | 0 <= i < |tokens| ensures |tokens[i]| >= 2 && AllWordChars(tokens[i]) {
      assert tokens[i] in tokens;
    }
  }

  /** No token occurs twice. */
  lemma {:induction false} ExtractWordsNoDuplicates(text: string)
    ensures NoDuplicates(ExtractWords(text))
  {
    ExtractWordsIsDistinctCandidates(text);
    DistinctSpec(Filter(Split(text), Qualifies));
  }

  /** Tokens come in the order in which they first occur among the pieces
      of the text: of two tokens, the earlier one first occurs earlier. */
  lemma {:induction false} ExtractWordsOrder(text: string, i: nat, j: nat)
    requires i < j < |ExtractWords(text)|
    ensures ExtractWords(text)[i] in Split(text) && ExtractWords(text)[j] in Split(text)
    ensures FirstIndex(Split(text), ExtractWords(text)[i]) < FirstIndex(Split(text), ExtractWords(text)[j])
  {
    ExtractWordsIsDistinctCandidates(text);
    DistinctFilterOrder(Split(text), Qualifies, i, j);
  }

  /** Deduplication is case-sensitive: two spellings of one word that both
      occur as pieces of two or more characters are both tokens. */
  lemma {:induction false} CaseVariantsAreDistinctTokens(text: string, x: string, y: string)
    requires x in Split(text) && y in Split(text) && |x| >= 2 && |y| >= 2
    requires x != y && Lower(x) == Lower(y)
    ensures x in ExtractWords(text) && y in ExtractWords(text)
  {
    ExtractWordsTokens(text);
  }

  /** Pieces that lie end to end as nothing are all empty. */
  lemma {:induction false} ConcatEmpty(pieces: seq<string>)
    requires Concat(pieces) == []
    ensures forall i :: 0 <= i < |pieces| ==> pieces[i] == []
    decreases |pieces|
  {
    if |pieces| > 0 {
      ConcatEmpty(pieces[1..]);
      assert forall i :: 1 <= i < |pieces| ==> pieces[i] == pieces[1..][i - 1];
    }
  }

  /** Blank text has no tokens: blankness is all the listener's text guard
      adds to what the extractor would skip anyway. */
  lemma {:induction false} BlankTextHasNoTokens(text: string)
    requires IsBlank(text)
    ensures ExtractWords(text) == []
  {
    forall i | 0 <= i < |text| ensures !IsWordChar(text[i]) {
      if IsWordChar(text[i]) {
        WordCharIsNotWhitespace(text[i]);
      }
    }
    FilterNone(text, IsWordChar);
    SplitLosesOnlySeparators(text);
    var pieces := Split(text);
    ConcatEmpty(pieces);
    FilterNone(pieces, Qualifies);
    assert Map([], Trim) == [];
  }
}

=== FILE: word.dfy ===
/** The `Word` entity: one row of the `words` table. */
module WordEntity {
  import opened Collections

  /** A tracked word. `id` is the primary key (0 asks the store to assign
      one); `dateAdded` is a timestamp supplied by the caller's clock;
      optional fields are Kotlin nullables. */
  datatype Word = Word(
    id: int,
    word: string,
    definition: Option<string>,
    pronunciation: Option<string>,
    partOfSpeech: Option<string>,
    source: Option<string>,
    copiedText: Option<string>,
    dateAdded: int,
    isFavorite: bool,
    usageCount: int)

  /** `Word(word = word)` with every other field at its declared default;
      the default `Date()` is the caller's clock reading `now`. */
  function NewWord(word: string, now: int): Word {
    Word(0, word, None, None, None, None, None, now, false, 1)
  }

  /** How Kotlin's string templates render a nullable string. */
  function ShowNullable(s: Option<string>): string {
    match s
    case None => "null"
    case Some(v) => v
  }

  /** The overridden toString; `showDate` is Date.toString. */
  function ToString(w: Word, showDate: int -> string): string {
    "Word(word='" + w.word + "', definition=" + ShowNullable(w.definition)
      + ", dateAdded=" + showDate(w.dateAdded) + ")"
  }

  /** toString shows only the word, its definition and its date: two rows
      that agree on these render identically. */
  lemma {:induction false} ToStringShowsOnlyWordDefinitionDate(a: Word, b: Word, showDate: int -> string)
    requires a.word == b.word && a.definition == b.definition && a.dateAdded == b.dateAdded
    ensures ToString(a, showDate) == ToString(b, showDate)
  {
  }
}

=== FILE: word_dao.dfy ===
/** The `words` table behind the Room DAO. The table is a value (`Table`):
    its rows in insertion order and the AUTOINCREMENT counter. Every DAO
    statement is a function on that value; the class `WordDao` holds the
    current value and its methods apply the statements in place. Read
    queries are functions of the current value. */
module Dao {
  import opened Collections
  import opened Text
  import opened WordEntity

  /** Rows in insertion order, and the id the next row inserted without an
      explicit id receives (SQLite's AUTOINCREMENT sequence plus one). */
  datatype Table = Table(rows: seq<Word>, nextId: int)

  /** `id` is the primary key: no two rows share it. */
  predicate UniqueIds(rows: seq<Word>) {
    forall i, j :: 0 <= i < j < |rows| ==> rows[i].id != rows[j].id
  }

  /** No two rows share a `word`. The schema does NOT enforce this. */
  predicate UniqueWords(rows: seq<Word>) {
    forall i, j :: 0 <= i < j < |rows| ==> rows[i].word != rows[j].word
  }

  /** The table invariant the store maintains: a primary key, and a
      counter above every id in use. */
  predicate ValidTable(t: Table) {
    && UniqueIds(t.rows)
    && forall i :: 0 <= i < |t.rows| ==> t.rows[i].id < t.nextId
  }

  function IdIsNot(id: int): Word -> bool {
    (w: Word) => w.id != id
  }

  /** Position of the row with primary key `id`. */
  function FindId(rows: seq<Word>, id: int): (r: Option<nat>)
    ensures r.Some? ==> r.value < |rows| && rows[r.value].id == id
    ensures r.None? <==> forall j :: 0 <= j < |rows| ==> rows[j].id != id
    decreases |rows|
  {
    if |rows| == 0 then None
    else if rows[0].id == id then Some(0)
    else match FindId(rows[1..], id)
      case None => None
      case Some(k) => Some(k + 1)
  }

  /** Position of the first row whose word is `k`. */
  function FindWord(rows: seq<Word>, k: string): (r: Option<nat>)
    ensures r.Some? ==> r.value < |rows| && rows[r.value].word == k
    ensures r.Some? ==> forall j :: 0 <= j < r.value ==> rows[j].word != k
    ensures r.None? <==> forall j :: 0 <= j < |rows| ==> rows[j].word != k
    decreases |rows|
  {
    if |rows| == 0 then None
    else if rows[0].word == k then Some(0)
    else match FindWord(rows[1..], k)
      case None => None
      case Some(i) => Some(i + 1)
  }

  // ---------------------------------------------------------------------
  // Statements

  /** `@Insert(onConflict = IGNORE)`. An id of 0 is bound as NULL, so the
      row gets the next AUTOINCREMENT id; any other id is used as given and
      a primary-key clash leaves the table alone and yields -1. Returns the
      new table and the row id. */
  function Inserted(t: Table, w: Word): (Table, int) {
    if w.id == 0 then
      (Table(t.rows + [w.(id := t.nextId)], t.nextId + 1), t.nextId)
    else if FindId(t.rows, w.id).Some? then
      (t, -1)
    else
      (Table(t.rows + [w], if w.id + 1 > t.nextId then w.id + 1 else t.nextId), w.id)
  }

  /** `UPDATE words SET usageCount = usageCount + 1 WHERE id = :wordId`. */
  function Incremented(t: Table, id: int): Table {
    match FindId(t.rows, id)
    case None => t
    case Some(p) => t.(rows := t.rows[p := t.rows[p].(usageCount := t.rows[p].usageCount + 1)])
  }

  /** `UPDATE words SET isFavorite = :isFavorite WHERE id = :wordId`. */
  function WithFavorite(t: Table, id: int, isFavorite: bool): Table {
    match FindId(t.rows, id)
    case None => t
    case Some(p) => t.(rows := t.rows[p := t.rows[p].(isFavorite := isFavorite)])
  }

  /** `@Update`: the row with the entity's primary key takes its values. */
  function Updated(t: Table, w: Word): Table {
    match FindId(t.rows, w.id)
    case None => t
    case Some(p) => t.(rows := t.rows[p := w])
  }

  /** `@Delete`: removes the row with the entity's primary key. */
  function Deleted(t: Table, w: Word): Table {
    match FindId(t.rows, w.id)
    case None => t
    case Some(p) => t.(rows := t.rows[..p] + t.rows[p + 1..])
  }

  /** `DELETE FROM words`. The AUTOINCREMENT counter is not reset. */
  function Cleared(t: Table): Table {
    t.(rows := [])
  }

  // ---------------------------------------------------------------------
  // What the statements do

  /** Insert with IGNORE: a clash on an explicit id changes nothing and
      reports -1; otherwise exactly one row is appended, under an id no
      other row has, and the counter never goes back. */
  lemma {:induction false} InsertedSpec(t: Table, w: Word)
    requires ValidTable(t)
    ensures ValidTable(Inserted(t, w).0)
    ensures Inserted(t, w).0.nextId >= t.nextId
    ensures var (t', id) := Inserted(t, w);
      if w.id != 0 && exists i :: 0 <= i < |t.rows| && t.rows[i].id == w.id then
        t' == t && id == -1
      else
        && t'.rows == t.rows + [w.(id := id)]
        && (forall i :: 0 <= i < |t.rows| ==> t.rows[i].id != id)
        && (w.id == 0 ==> id == t.nextId)
        && (w.id != 0 ==> id == w.id)
  {
    var (t', id) := Inserted(t, w);
    if w.id == 0 {
      assert w.(id := t.nextId) == w.(id := id);
    } else if FindId(t.rows, w.id).None? {
      assert w.(id := id) == w;
    }
  }

  /** A row created with the defaults of `Word` (id 0) always goes in: it
      gets the next id, a usage count of 1 and is not a favourite. */
  lemma {:induction false} InsertNewWordAssignsId(t: Table, word: string, now: int)
    requires ValidTable(t)
    ensures var (t', id) := Inserted(t, NewWord(word, now));
      && id == t.nextId && |t'.rows| == |t.rows| + 1
      && t'.rows[|t.rows|].id == id && t'.rows[|t.rows|].word == word
      && t'.rows[|t.rows|].usageCount == 1 && !t'.rows[|t.rows|].isFavorite
      && t'.rows[|t.rows|].dateAdded == now
      && t'.rows[|t.rows|].definition.None? && t'.rows[|t.rows|].pronunciation.None?
      && t'.rows[|t.rows|].partOfSpeech.None? && t'.rows[|t.rows|].source.None?
      && t'.rows[|t.rows|].copiedText.None?
  {
    InsertedSpec(t, NewWord(word, now));
  }

  /** The UPDATE touches exactly the row whose id matches, adding one to its
      usage count; unknown ids are a no-op. */
  lemma {:induction false} IncrementedSpec(t: Table, id: int)
    requires ValidTable(t)
    ensures ValidTable(Incremented(t, id))
    ensures Incremented(t, id).nextId == t.nextId
    ensures |Incremented(t, id).rows| == |t.rows|
    ensures forall i :: 0 <= i < |t.rows| ==>
      Incremented(t, id).rows[i] ==
        if t.rows[i].id == id then t.rows[i].(usageCount := t.rows[i].usageCount + 1) else t.rows[i]
  {
  }

  /** The UPDATE sets the flag of exactly the row whose id matches. */
  lemma {:induction false} WithFavoriteSpec(t: Table, id: int, isFavorite: bool)
    requires ValidTable(t)
    ensures ValidTable(WithFavorite(t, id, isFavorite))
    ensures WithFavorite(t, id, isFavorite).nextId == t.nextId
    ensures |WithFavorite(t, id, isFavorite).rows| == |t.rows|
    ensures forall i :: 0 <= i < |t.rows| ==>
      WithFavorite(t, id, isFavorite).rows[i] ==
        if t.rows[i].id == id then t.rows[i].(isFavorite := isFavorite) else t.rows[i]
  {
  }

  /** Setting the flag twice is setting it once. */
  lemma {:induction false} WithFavoriteIdempotent(t: Table, id: int, isFavorite: bool)
    requires ValidTable(t)
    ensures WithFavorite(WithFavorite(t, id, isFavorite), id, isFavorite) == WithFavorite(t, id, isFavorite)
  {
    var once := WithFavorite(t, id, isFavorite);
    WithFavoriteSpec(t, id, isFavorite);
    WithFavoriteSpec(once, id, isFavorite);
    var twice := WithFavorite(once, id, isFavorite);
    assert twice.rows == once.rows;
  }

  /** `@Update` replaces exactly the row with the entity's id. */
  lemma {:induction false} UpdatedSpec(t: Table, w: Word)
    requires ValidTable(t)
    ensures ValidTable(Updated(t, w))
    ensures |Updated(t, w).rows| == |t.rows|
    ensures forall i :: 0 <= i < |t.rows| ==>
      Updated(t, w).rows[i] == if t.rows[i].id == w.id then w else t.rows[i]
    ensures Updated(t, w).nextId == t.nextId
  {
  }

  /** Removing one position keeps the primary key and the counter bound. */
  lemma {:induction false} RemoveAtKeepsValid(t: Table, p: nat)
    requires ValidTable(t) && p < |t.rows|
    ensures ValidTable(t.(rows := t.rows[..p] + t.rows[p + 1..]))
  {
    var r := t.rows[..p] + t.rows[p + 1..];
    assert forall i :: 0 <= i < |r| ==> r[i] == t.rows[if i < p then i else i + 1];
  }

  /** With a primary key, dropping the row at `p` is the same as keeping
      every row whose id differs from its id. */
  lemma {:induction false} RemoveAtIsFilter(rows: seq<Word>, p: nat)
    requires UniqueIds(rows) && p < |rows|
    ensures Filter(rows, IdIsNot(rows[p].id)) == rows[..p] + rows[p + 1..]
  {
    var keep := IdIsNot(rows[p].id);
    var x, before, after := rows[p], rows[..p], rows[p + 1..];
    assert rows == before + [x] + after;
    assert Filter(before, keep) == before by {
      assert forall i :: 0 <= i < |before| ==> before[i] == rows[i];
      FilterAll(before, keep);
    }
    assert Filter(after, keep) == after by {
      assert forall i :: 0 <= i < |after| ==> after[i] == rows[p + 1 + i];
      FilterAll(after, keep);
    }
    assert Filter([x], keep) == [] by {
      assert !keep(x);
    }
    var front := before + [x];
    assert rows == front + after;
    FilterAppend(front, after, keep);
    FilterAppend(before, [x], keep);
    assert Filter(front, keep) == before;
    assert Filter(rows, keep) == before + after;
  }

  /** `@Delete` keeps every row but the one with the entity's id. */
  lemma {:induction false} DeletedSpec(t: Table, w: Word)
    requires ValidTable(t)
    ensures ValidTable(Deleted(t, w))
    ensures Deleted(t, w).rows == Filter(t.rows, IdIsNot(w.id))
    ensures Deleted(t, w).nextId == t.nextId
  {
    match FindId(t.rows, w.id)
    case None =>
      FilterAll(t.rows, IdIsNot(w.id));
    case Some(p) =>
      RemoveAtKeepsValid(t, p);
      RemoveAtIsFilter(t.rows, p);
  }

  /** `DELETE FROM words` empties the table. */
  lemma {:induction false} ClearedSpec(t: Table)
    requires ValidTable(t)
    ensures ValidTable(Cleared(t))
    ensures WordCount(Cleared(t)) == 0 && AllWords(Cleared(t)) == []
    ensures Cleared(t).nextId == t.nextId
  {
  }

  /** The statements other than inserts and `@Update` never rename a row
      and never add one, so words that were unique stay unique: the user's
      toggles and deletes between two clipboard events keep the uniqueness
      the ingestion relies on. */
  lemma {:induction false} IncrementedKeepsUniqueWords(t: Table, id: int)
    requires UniqueWords(t.rows)
    ensures UniqueWords(Incremented(t, id).rows)
  {
    if FindId(t.rows, id).Some? {
      SameWordsKeepUnique(t.rows, Incremented(t, id).rows);
    }
  }

  lemma {:induction false} WithFavoriteKeepsUniqueWords(t: Table, id: int, isFavorite: bool)
    requires UniqueWords(t.rows)
    ensures UniqueWords(WithFavorite(t, id, isFavorite).rows)
  {
    if FindId(t.rows, id).Some? {
      SameWordsKeepUnique(t.rows, WithFavorite(t, id, isFavorite).rows);
    }
  }

  lemma {:induction false} DeletedKeepsUniqueWords(t: Table, w: Word)
    requires UniqueWords(t.rows)
    ensures UniqueWords(Deleted(t, w).rows)
    ensures UniqueWords(Cleared(t).rows)
  {
    match FindId(t.rows, w.id)
    case None =>
    case Some(p) =>
      RemoveAtKeepsUniqueWords(t.rows, p);
  }

  lemma {:induction false} SameWordsKeepUnique(rows: seq<Word>, rows': seq<Word>)
    requires UniqueWords(rows) && |rows'| == |rows|
    requires forall i :: 0 <= i < |rows| ==> rows'[i].word == rows[i].word
    ensures UniqueWords(rows')
  {
  }

  lemma {:induction false} RemoveAtKeepsUniqueWords(rows: seq<Word>, p: nat)
    requires UniqueWords(rows) && p < |rows|
    ensures UniqueWords(rows[..p] + rows[p + 1..])
  {
    var r := rows[..p] + rows[p + 1..];
    forall i, j | 0 <= i < j < |r|
      ensures r[i].word != r[j].word
    {
      var i', j' := if i < p then i else i + 1, if j < p then j else j + 1;
      assert r[i] == rows[i'] && r[j] == rows[j'];
    }
  }

  // ---------------------------------------------------------------------
  // Queries

  /** `SELECT * FROM words WHERE word = :word LIMIT 1` (the first such row
      in table order). */
  function GetWord(t: Table, k: string): (r: Option<Word>)
    ensures r.Some? ==> r.value.word == k
    ensures r.None? <==> forall i :: 0 <= i < |t.rows| ==> t.rows[i].word != k
  {
    match FindWord(t.rows, k)
    case None => None
    case Some(p) => Some(t.rows[p])
  }

  /** The row found is the first row, in table order, with that word. */
  lemma {:induction false} GetWordFirst(t: Table, k: string)
    ensures GetWord(t, k).Some? ==>
      exists p :: 0 <= p < |t.rows| && t.rows[p] == GetWord(t, k).value && (forall j :: 0 <= j < p ==> t.rows[j].word != k)
  {
    var found := FindWord(t.rows, k);
    if found.Some? {
      var p := found.value;
      assert t.rows[p] == GetWord(t, k).value;
    }
  }

  /** With unique words, the row found is the only row with that word. */
  lemma {:induction false} GetWordUnique(t: Table, k: string, i: nat)
    requires UniqueWords(t.rows) && i < |t.rows| && t.rows[i].word == k
    ensures GetWord(t, k) == Some(t.rows[i])
  {
  }

  /** `SELECT COUNT(*) FROM words`. */
  function WordCount(t: Table): nat {
    |t.rows|
  }

  /** COUNT(*) tracks every statement: an insert adds one row unless it is
      ignored, a delete removes one row when the id is present, the
      updates keep the count. */
  lemma {:induction false} WordCountSpec(t: Table, w: Word, id: int, b: bool)
    requires ValidTable(t)
    ensures WordCount(Inserted(t, w).0) ==
      WordCount(t) + (if w.id != 0 && exists i :: 0 <= i < |t.rows| && t.rows[i].id == w.id then 0 else 1)
    ensures WordCount(Deleted(t, w)) == WordCount(t) - (if exists i :: 0 <= i < |t.rows| && t.rows[i].id == w.id then 1 else 0)
    ensures WordCount(Incremented(t, id)) == WordCount(t)
    ensures WordCount(WithFavorite(t, id, b)) == WordCount(t)
  {
    InsertedSpec(t, w);
    IncrementedSpec(t, id);
    WithFavoriteSpec(t, id, b);
    match FindId(t.rows, w.id)
    case None =>
    case Some(p) =>
      assert t.rows[p].id == w.id;
  }

  function DateKey(w: Word): int {
    w.dateAdded
  }

  function IsFavoriteRow(w: Word): bool {
    w.isFavorite
  }

  /** `SELECT * FROM words ORDER BY dateAdded DESC`; rows with equal dates
      keep table order. */
  function AllWords(t: Table): seq<Word> {
    SortDesc(t.rows, DateKey)
  }

  /** All rows, newest first. */
  lemma {:induction false} AllWordsSpec(t: Table)
    ensures SortedDesc(AllWords(t), DateKey)
    ensures multiset(AllWords(t)) == multiset(t.rows)
    ensures |AllWords(t)| == |t.rows|
  {
    SortDescSpec(t.rows, DateKey);
    assert |multiset(AllWords(t))| == |multiset(t.rows)|;
  }

  /** `SELECT * FROM words WHERE isFavorite = 1 ORDER BY dateAdded DESC`. */
  function FavoriteWords(t: Table): seq<Word> {
    SortDesc(Filter(t.rows, IsFavoriteRow), DateKey)
  }

  /** Exactly the favourite rows, each as often as in the table, newest
      first. */
  lemma {:induction false} FavoriteWordsSpec(t: Table)
    ensures SortedDesc(FavoriteWords(t), DateKey)
    ensures forall w :: w in FavoriteWords(t) <==> w in t.rows && w.isFavorite
    ensures forall w :: multiset(FavoriteWords(t))[w] == if w.isFavorite then multiset(t.rows)[w] else 0
  {
    var f := Filter(t.rows, IsFavoriteRow);
    SortDescSpec(f, DateKey);
    FilterSpec(t.rows, IsFavoriteRow);
    forall w ensures w in FavoriteWords(t) <==> w in f {
      assert w in FavoriteWords(t) <==> w in multiset(FavoriteWords(t));
    }
  }

  /** `SELECT * FROM words ORDER BY dateAdded DESC LIMIT 50`. */
  function RecentWords(t: Table): seq<Word> {
    Take(AllWords(t), 50)
  }

  /** The newest min(50, n) rows: a prefix of the full listing. */
  lemma {:induction false} RecentWordsSpec(t: Table)
    ensures |RecentWords(t)| == if |t.rows| < 50 then |t.rows| else 50
    ensures RecentWords(t) <= AllWords(t)
    ensures SortedDesc(RecentWords(t), DateKey)
    ensures forall w :: w in RecentWords(t) ==> w in t.rows
  {
    AllWordsSpec(t);
    var all := AllWords(t);
    forall w | w in RecentWords(t) ensures w in t.rows {
      assert w in multiset(all);
    }
  }

  // ---------------------------------------------------------------------
  // LIKE

  /** SQLite's LIKE without ESCAPE: `%` matches any run, `_` any single
      character, other characters match up to ASCII case. */
  function Like(s: string, pattern: string): bool
    decreases |s| + |pattern|
  {
    if |pattern| == 0 then |s| == 0
    else if pattern[0] == '%' then
      Like(s, pattern[1..]) || (|s| > 0 && Like(s[1..], pattern))
    else
      && |s| > 0
      && (pattern[0] == '_' || LowerChar(s[0]) == LowerChar(pattern[0]))
      && Like(s[1..], pattern[1..])
  }

  predicate NoWildcards(q: string) {
    forall i :: 0 <= i < |q| ==> q[i] != '%' && q[i] != '_'
  }

  lemma {:induction false} LikeAnything(s: string)
    ensures Like(s, "%")
    decreases |s|
  {
    if |s| > 0 {
      LikeAnything(s[1..]);
    }
  }

  /** `q%` matches the strings that begin with `q`, up to case. */
  lemma {:induction false} LikePrefix(s: string, q: string)
    requires NoWildcards(q)
    ensures Like(s, q + "%") <==> |q| <= |s| && EqIgnoreCase(s[..|q|], q)
    decreases |q|
  {
    if |q| == 0 {
      assert q + "%" == "%";
      LikeAnything(s);
    } else {
      var p := q + "%";
      assert p[0] == q[0] && p[1..] == q[1..] + "%";
      if |s| > 0 {
        LikePrefix(s[1..], q[1..]);
        if |q| <= |s| {
          assert s[..|q|] == [s[0]] + s[1..][..|q| - 1];
          assert EqIgnoreCase(s[..|q|], q) <==>
            LowerChar(s[0]) == LowerChar(q[0]) && EqIgnoreCase(s[1..][..|q| - 1], q[1..]);
        }
      }
    }
  }

  /** The pattern `P` matches from position `i` of `s`. */
  predicate LikeFrom(s: string, pattern: string, i: int) {
    0 <= i <= |s| && Like(s[i..], pattern)
  }

  /** A leading `%` lets the rest of the pattern match any suffix. */
  lemma {:induction false} LikeLeadingPercent(s: string, pattern: string)
    ensures Like(s, "%" + pattern) <==> exists i :: 0 <= i <= |s| && LikeFrom(s, pattern, i)
    decreases |s|
  {
    var p := "%" + pattern;
    assert p[0] == '%' && p[1..] == pattern;
    assert s[0..] == s;
    if Like(s, pattern) {
      assert LikeFrom(s, pattern, 0);
    }
    if |s| > 0 {
      LikeLeadingPercent(s[1..], pattern);
      if Like(s, p) && !Like(s, pattern) {
        var i :| 0 <= i <= |s| - 1 && LikeFrom(s[1..], pattern, i);
        assert s[1..][i..] == s[i + 1..];
        assert LikeFrom(s, pattern, i + 1);
      }
      if exists i :: 0 <= i <= |s| && LikeFrom(s, pattern, i) {
        var i :| 0 <= i <= |s| && LikeFrom(s, pattern, i);
        if i > 0 {
          assert s[1..][i - 1..] == s[i..];
          assert LikeFrom(s[1..], pattern, i - 1);
          assert Like(s[1..], p);
        } else {
          assert Like(s, pattern);
        }
        assert Like(s, p);
      }
    }
  }

  /** The repository's pattern `%query%` on a query without wildcards finds
      exactly the strings that contain the query, ignoring case. */
  lemma {:induction false} LikeContains(s: string, q: string)
    requires NoWildcards(q)
    ensures Like(s, "%" + q + "%") <==> ContainsIgnoreCase(s, q)
  {
    assert "%" + q + "%" == "%" + (q + "%");
    LikeLeadingPercent(s, q + "%");
    forall i | 0 <= i <= |s|
      ensures LikeFrom(s, q + "%", i) <==> MatchesAt(s, q, i)
    {
      LikePrefix(s[i..], q);
      if |q| <= |s| - i {
        assert s[i..][..|q|] == s[i..i + |q|];
      }
    }
    if ContainsIgnoreCase(s, q) {
      var i :| 0 <= i <= |s| - |q| && MatchesAt(s, q, i);
      assert LikeFrom(s, q + "%", i);
    }
  }

  /** The WHERE clause of searchWords. */
  function LikeRow(pattern: string): Word -> bool {
    (w: Word) => Like(w.word, pattern) || (w.definition.Some? && Like(w.definition.value, pattern))
  }

  /** `SELECT * FROM words WHERE word LIKE :query OR definition LIKE :query
      ORDER BY dateAdded DESC`; a NULL definition never matches. */
  function SearchWords(t: Table, pattern: string): seq<Word> {
    SortDesc(Filter(t.rows, LikeRow(pattern)), DateKey)
  }

  /** The rows whose word or definition match, each as often as in the
      table, newest first. */
  lemma {:induction false} SearchWordsSpec(t: Table, pattern: string)
    ensures SortedDesc(SearchWords(t, pattern), DateKey)
    ensures forall w :: w in SearchWords(t, pattern) <==>
      w in t.rows && (Like(w.word, pattern) || (w.definition.Some? && Like(w.definition.value, pattern)))
    ensures forall w :: multiset(SearchWords(t, pattern))[w] == if LikeRow(pattern)(w) then multiset(t.rows)[w] else 0
  {
    var f := Filter(t.rows, LikeRow(pattern));
    SortDescSpec(f, DateKey);
    FilterSpec(t.rows, LikeRow(pattern));
    forall w ensures w in SearchWords(t, pattern) <==> w in f {
      assert w in SearchWords(t, pattern) <==> w in multiset(SearchWords(t, pattern));
    }
  }

  // ---------------------------------------------------------------------
  // The DAO over the live table

  class WordDao {
    var rows: seq<Word>
    var nextId: int

    /** The table as a value. */
    function State(): Table
      reads this
    {
      Table(rows, nextId)
    }

    ghost predicate Valid()
      reads this
    {
      ValidTable(State())
    }

    /** A fresh, empty database: AUTOINCREMENT starts at 1. */
    constructor ()
      ensures Valid() && State() == Table([], 1)
    {
      rows, nextId := [], 1;
    }

    method InsertWord(w: Word) returns (rowId: int)
      requires Valid()
      modifies this
      ensures Valid()
      ensures (State(), rowId) == Inserted(old(State()), w)
    {
      InsertedSpec(State(), w);
      if w.id == 0 {
        rowId := nextId;
        rows := rows + [w.(id := rowId)];
        nextId := nextId + 1;
      } else if FindId(rows, w.id).Some? {
        rowId := -1;
      } else {
        rowId := w.id;
        rows := rows + [w];
        if w.id + 1 > nextId {
          nextId := w.id + 1;
        }
      }
    }

    method UpdateWord(w: Word)
      requires Valid()
      modifies this
      ensures Valid()
      ensures State() == Updated(old(State()), w)
    {
      UpdatedSpec(State(), w);
      var p := FindId(rows, w.id);
      if p.Some? {
        rows := rows[p.value := w];
      }
    }

    method DeleteWord(w: Word)
      requires Valid()
      modifies this
      ensures Valid()
      ensures State() == Deleted(old(State()), w)
    {
      DeletedSpec(State(), w);
      var p := FindId(rows, w.id);
      if p.Some? {
        rows := rows[..p.value] + rows[p.value + 1..];
      }
    }

    method DeleteAllWords()
      requires Valid()
      modifies this
      ensures Valid()
      ensures State() == Cleared(old(State()))
    {
      rows := [];
    }

    method IncrementUsageCount(wordId: int)
      requires Valid()
      modifies this
      ensures Valid()
      ensures State() == Incremented(old(State()), wordId)
    {
      IncrementedSpec(State(), wordId);
      var p := FindId(rows, wordId);
      if p.Some? {
        rows := rows[p.value := rows[p.value].(usageCount := rows[p.value].usageCount + 1)];
      }
    }

    method SetFavorite(wordId: int, isFavorite: bool)
      requires Valid()
      modifies this
      ensures Valid()
      ensures State() == WithFavorite(old(State()), wordId, isFavorite)
    {
      WithFavoriteSpec(State(), wordId, isFavorite);
      var p := FindId(rows, wordId);
      if p.Some? {
        rows := rows[p.value := rows[p.value].(isFavorite := isFavorite)];
      }
    }
  }
}

=== FILE: word_repository.dfy ===
/** WordRepository: the clipboard ingestion loop over the DAO, the
    dictionary lookup reduced to the enrichment of a new row, and the
    calls it forwards to the DAO. */
module Repository {
  import opened Collections
  import opened Text
  import opened WordEntity
  import opened Dao
  import opened Dictionary
  import opened Tokenizer
  import opened Ingestion

  /** fetchWordDefinition: the service is asked under the lower-case form
      of the word, and its answer reduced. */
  function FetchWordDefinition(word: string, lookup: string -> LookupOutcome): Option<WordDefinition> {
    Reduce(lookup(Lower(word)))
  }

  /** The service only ever sees the lower-case key: spellings that differ
      in case fetch the same definition, and so does the lower-cased form
      the row stores. */
  lemma {:induction false} FetchIgnoresCase(a: string, b: string, lookup: string -> LookupOutcome)
    requires EqIgnoreCase(a, b)
    ensures FetchWordDefinition(a, lookup) == FetchWordDefinition(b, lookup)
    ensures FetchWordDefinition(Lower(a), lookup) == FetchWordDefinition(a, lookup)
  {
    assert Lower(a) == Lower(b);
    LowerIdempotent(a);
  }

  /** The repository's search pattern is the query wrapped in `%`: for a
      query without wildcard characters it finds exactly the rows whose
      word or definition contains the query, ignoring case, newest
      first. */
  lemma {:induction false} SearchFindsSubstrings(t: Table, query: string)
    requires NoWildcards(query)
    ensures SortedDesc(Dao.SearchWords(t, "%" + query + "%"), DateKey)
    ensures forall w :: w in Dao.SearchWords(t, "%" + query + "%") <==>
      w in t.rows
      && (ContainsIgnoreCase(w.word, query)
          || (w.definition.Some? && ContainsIgnoreCase(w.definition.value, query)))
  {
    var pattern := "%" + query + "%";
    SearchWordsSpec(t, pattern);
    forall w | w in t.rows
      ensures LikeRow(pattern)(w) <==>
        ContainsIgnoreCase(w.word, query)
        || (w.definition.Some? && ContainsIgnoreCase(w.definition.value, query))
    {
      LikeContains(w.word, query);
      if w.definition.Some? {
        LikeContains(w.definition.value, query);
      }
    }
  }

  class WordRepository {
    const dao: WordDao

    constructor (dao: WordDao)
      ensures this.dao == dao
    {
      this.dao := dao;
    }

    function AllWords(): seq<Word>
      reads dao
    {
      Dao.AllWords(dao.State())
    }

    /** searchWords: the DAO query with the pattern `%query%`. */
    function SearchWords(query: string): seq<Word>
      reads dao
    {
      Dao.SearchWords(dao.State(), "%" + query + "%")
    }

    function FavoriteWords(): seq<Word>
      reads dao
    {
      Dao.FavoriteWords(dao.State())
    }

    function RecentWords(): seq<Word>
      reads dao
    {
      Dao.RecentWords(dao.State())
    }

    function WordCount(): nat
      reads dao
    {
      Dao.WordCount(dao.State())
    }

    /** addWordFromClipboard: each token is handled in order; a store call
        that throws ends that token's iteration only. The clock reading
        `now` and the dictionary and store outcomes come from the caller. */
    method AddWordFromClipboard(copiedText: string, source: Option<string>, now: int, oracle: Oracle)
      requires dao.Valid()
      modifies dao
      ensures dao.Valid()
      ensures dao.State() == Ingest(old(dao.State()), ClipEvent(copiedText, source, now), oracle)
    {
      var ev := ClipEvent(copiedText, source, now);
      ghost var start := dao.State();
      var words := ExtractWords(copiedText);
      var i := 0;
      while i < |words|
        invariant 0 <= i <= |words|
        invariant dao.Valid()
        invariant dao.State() == IngestPrefix(start, words, i, ev, oracle)
      {
        AddToken(words[i], i in oracle.storeFaults, ev, oracle.lookup);
        i := i + 1;
      }
      assert Ingest(start, ev, oracle) == IngestPrefix(start, words, |words|, ev, oracle);
    }

    /** The try block for one token: increment the stored row of its
        lower-case form, or look the word up and insert a new row. When
        `faulted`, the store call throws, the exception is caught and the
        table is left as it was. */
    method AddToken(wordText: string, faulted: bool, ev: ClipEvent, lookup: string -> LookupOutcome)
      requires dao.Valid()
      modifies dao
      ensures dao.Valid()
      ensures dao.State() == IngestToken(old(dao.State()), wordText, faulted, ev, lookup)
    {
      if faulted {
        return;
      }
      var existingWord := GetWord(dao.State(), Lower(wordText));
      if existingWord.Some? {
        dao.IncrementUsageCount(existingWord.value.id);
      } else {
        var definition := FetchWordDefinition(wordText, lookup);
        var rowId := dao.InsertWord(NewEntry(wordText, definition, ev));
      }
    }

    method ToggleFavorite(wordId: int, isFavorite: bool)
      requires dao.Valid()
      modifies dao
      ensures dao.Valid()
      ensures dao.State() == WithFavorite(old(dao.State()), wordId, isFavorite)
    {
      dao.SetFavorite(wordId, isFavorite);
    }

    method DeleteWord(word: Word)
      requires dao.Valid()
      modifies dao
      ensures dao.Valid()
      ensures dao.State() == Deleted(old(dao.State()), word)
    {
      dao.DeleteWord(word);
    }

    method DeleteAllWords()
      requires dao.Valid()
      modifies dao
      ensures dao.Valid()
      ensures dao.State() == Cleared(old(dao.State()))
    {
      dao.DeleteAllWords();
    }
  }
}

=== FILE: word_view_model.dfy ===
/** WordViewModel: the screen state (search query, service switch,
    selected word), the filtered list the word screen shows, and the
    actions it forwards to the repository. Flows are read as their
    current values. */
module ViewModel {
  import opened Collections
  import opened Text
  import opened WordEntity
  import opened Dao
  import opened Repository

  /** The predicate of the filter: the word, or a non-null definition,
      contains the query, ignoring case. */
  function MatchesQuery(query: string): Word -> bool {
    (w: Word) => ContainsIgnoreCase(w.word, query)
                 || (w.definition.Some? && ContainsIgnoreCase(w.definition.value, query))
  }

  /** filteredWords, given the current list and query. */
  function Filtered(words: seq<Word>, query: string): seq<Word> {
    if IsBlank(query) then words else Filter(words, MatchesQuery(query))
  }

  /** A blank query shows the list unchanged; otherwise the result is the
      sublist, in the original order, of exactly the words whose word or
      definition contains the query up to case, each as often as in the
      list. A word without a definition is shown only for its word. */
  lemma {:induction false} FilteredSpec(words: seq<Word>, query: string)
    ensures IsBlank(query) ==> Filtered(words, query) == words
    ensures SubsequenceOf(Filtered(words, query), words)
    ensures !IsBlank(query) ==> forall w :: w in Filtered(words, query) <==>
      w in words
      && (ContainsIgnoreCase(w.word, query)
          || (w.definition.Some? && ContainsIgnoreCase(w.definition.value, query)))
    ensures !IsBlank(query) ==> forall w ::
      multiset(Filtered(words, query))[w] == (if MatchesQuery(query)(w) then multiset(words)[w] else 0)
    ensures forall w :: w in Filtered(words, query) && w.definition.None? && !IsBlank(query) ==>
      ContainsIgnoreCase(w.word, query)
  {
    FilterSpec(words, MatchesQuery(query));
    if IsBlank(query) {
      SubsequenceOfSelf(words);
    }
  }

  /** Every sequence is a subsequence of itself. */
  lemma {:induction false} SubsequenceOfSelf<T>(s: seq<T>)
    ensures SubsequenceOf(s, s)
    decreases |s|
  {
    if |s| > 0 {
      SubsequenceOfSelf(s[1..]);
    }
  }

  /** For a non-blank query without wildcard characters, the filter on the
      full list and the repository's search find the same words. */
  lemma {:induction false} FilterAgreesWithSearch(t: Table, query: string)
    requires !IsBlank(query) && NoWildcards(query)
    ensures forall w :: w in Filtered(Dao.AllWords(t), query) <==> w in Dao.SearchWords(t, "%" + query + "%")
  {
    var all := Dao.AllWords(t);
    AllWordsSpec(t);
    FilteredSpec(all, query);
    SearchFindsSubstrings(t, query);
    forall w ensures w in all <==> w in t.rows {
      assert w in all <==> w in multiset(all);
    }
  }

  class WordViewModel {
    const repository: WordRepository
    var searchQuery: string
    var serviceEnabled: bool
    var selectedWord: Option<Word>

    /** The initial state: empty query, service off, nothing selected. */
    constructor (repository: WordRepository)
      ensures this.repository == repository
      ensures searchQuery == "" && !serviceEnabled && selectedWord == None
    {
      this.repository := repository;
      searchQuery := "";
      serviceEnabled := false;
      selectedWord := None;
    }

    /** The list the word screen shows. */
    function FilteredWords(): seq<Word>
      reads this, repository.dao
    {
      Filtered(repository.AllWords(), searchQuery)
    }

    method SetSearchQuery(query: string)
      modifies this
      ensures searchQuery == query
      ensures serviceEnabled == old(serviceEnabled) && selectedWord == old(selectedWord)
    {
      searchQuery := query;
    }

    method SetServiceEnabled(enabled: bool)
      modifies this
      ensures serviceEnabled == enabled
      ensures searchQuery == old(searchQuery) && selectedWord == old(selectedWord)
    {
      serviceEnabled := enabled;
    }

    /** Negates the switch; two toggles restore it. */
    method ToggleService()
      modifies this
      ensures serviceEnabled == !old(serviceEnabled)
      ensures searchQuery == old(searchQuery) && selectedWord == old(selectedWord)
    {
      serviceEnabled := !serviceEnabled;
    }

    method SelectWord(word: Word)
      modifies this
      ensures selectedWord == Some(word)
      ensures searchQuery == old(searchQuery) && serviceEnabled == old(serviceEnabled)
    {
      selectedWord := Some(word);
    }

    method ClearSelectedWord()
      modifies this
      ensures selectedWord == None
      ensures searchQuery == old(searchQuery) && serviceEnabled == old(serviceEnabled)
    {
      selectedWord := None;
    }

    /** Asks the store to flip the flag as the caller last saw it. */
    method ToggleFavorite(word: Word)
      requires repository.dao.Valid()
      modifies repository.dao
      ensures repository.dao.Valid()
      ensures repository.dao.State() == WithFavorite(old(repository.dao.State()), word.id, !word.isFavorite)
    {
      repository.ToggleFavorite(word.id, !word.isFavorite);
    }

    method DeleteWord(word: Word)
      requires repository.dao.Valid()
      modifies repository.dao
      ensures repository.dao.Valid()
      ensures repository.dao.State() == Deleted(old(repository.dao.State()), word)
    {
      repository.DeleteWord(word);
    }

    method DeleteAllWords()
      requires repository.dao.Valid()
      modifies repository.dao
      ensures repository.dao.Valid()
      ensures repository.dao.State() == Cleared(old(repository.dao.State()))
    {
      repository.DeleteAllWords();
    }
  }
}
